=== FILE: README.md ===
# Scanner and parser of a logic-gate simulator, in Dafny

This project models the two front-end components of a logic-gate simulator. The simulator's
circuit definition files look like this:

    [devices]
    A, B = NAND(2);
    CK = CLOCK(5);
    FF = DTYPE;
    [conns]
    A = FF.DATA;

- **The scanner** (`scanner.py`) turns the characters of such a file into symbols, one per
  `get_symbol` call. There are section headings, device kinds, names, numbers, punctuation and
  an end-of-file symbol. Identifiers are interned in the shared name table. The scanner records
  `ScannerError`s for reserved words used as names and for characters that start no symbol.
- **The parser** (`parse.py`) is a recursive-descent recogniser over that symbol stream. It
  reads a `[devices]` section of statements `name (',' name)* '=' KIND ['(' n ')'] ';'`, then
  a `[conns]` section of statements `dev ['.' Q|QBAR] '=' dev '.' pin (',' dev '.' pin)* ';'`.
  Every problem is appended to an error list and parsing carries on. Device creations and
  connections are issued as requests to a device registry and a network.

The scanner is a pure step function over the text held as a `seq<char>`. Its cursor is a record
holding the next index, the current character, and the line and column counters. `Valid` ties
the cursor to the text.

The parser state is a record of five parts:
- the scanner;
- the current symbol;
- the diagnostics;
- the stored device names;
- the log of requests issued.

Each parsing method is a function from state to `Outcome`. An outcome is a new state, an
uncaught Python exception (`Crash`), a loop that provably never exits (`Hang`), or `OutOfFuel`
for a loop the source leaves unguarded. `Follows(p, q)` says that `q` is a later state of the
same pass. In a later state, the text is the same, the name table, diagnostics, stored names
and log have only grown, and the scanner is no further back.

The code is modelled as written, and several lemmas show where it departs from its own comments:
- the first name of a device statement is never stored, so it can be defined again;
- an out-of-range parameter records INVALID_NUMBER and still creates the devices;
- the pin-index check is inverted, so no numbered pin ever connects;
- the pin pattern accepts `I17`;
- the existence check on connection names cannot fail for a scanned name;
- a statement that reads nothing stalls its loop until the 500-iteration guard;
- an invalid character is never consumed;
- only one comment is skipped per call, and a comment at the end of the file without a newline
  never ends;
- a reserved word that ends its line is reported one line too far on, at a negative column;
- `parse_network` reports success whatever it recorded.

Files:
- `wrappers.dfy`: `Option` and `Outcome`.
- `charclass.dfy`: the ASCII character classes, `lower`, and `int()` on digit strings.
- `names.dfy`: the name table.
- `scanner.dfy`: the scanner.
- `scanner_props.dfy`: properties of the scanner.
- `parse_state.dfy`: the parser state, `advance` and `add_error`.
- `device_parsing.dfy`: the devices section.
- `conn_parsing.dfy`: the connections section.
- `network.dfy`: `Parser.__init__` and `parse_network`.

## Model

| member | source | states |
|---|---|---|
| `CharClass.Lower` | scanner.py:139-141 | lower-casing keeps the length and maps each upper-case letter to its lower-case form, leaving every other character alone |
| `CharClass.ParseInt` | parse.py:740 | `int()` on a pin suffix succeeds exactly when the suffix is a non-empty run of digits |
| `CharClass.DecimalRoundTrip` | scanner.py:263-269 | reading back the decimal spelling of a number gives the number (the inverse of `int()` on digit runs) |
| `NameTable.Query` | parse.py:647 | `query` finds an id exactly when the name is in the table, and the id indexes that name |
| `NameTable.Intern` | scanner.py:180-183 | interning grows the table by the name exactly when it was unseen, keeps the names distinct, and returns the name's index |
| `NameTable.Lookup` | parse.py:186-188 | `lookup` returns one id per name, in order; each id indexes its name; the table only grows, and it is unchanged when every name was already known |
| `NameTable.QueryFindsIndex` | parse.py:708 | in a table of distinct names, `query` of the name at an index returns that index |
| `NameTable.QueryAfterLookup` | parse.py:708-712 | after `lookup`, `query` of each name gives the id `lookup` returned for it |
| `Scanning.Start` | scanner.py:122-146 | a fresh scanner holds the given text and name table, has recorded nothing, sits on the initial blank at line 0, column 0, satisfies the cursor invariant, and has the whole text plus that blank still to pass |
| `Scanning.Advance` | scanner.py:276-287 | reading a character moves the cursor by one; a newline increments the line and resets the column to 0, and any other character increments the column |
| `Scanning.LineEnd` | scanner.py:289-297 | a line ends just past the first newline at or after its start, or at the end of the text; a line that starts before the end of the text holds at least one character |
| `Scanning.SkipSpaces` | scanner.py:271-274 | skipping passes only whitespace and stops on a non-space character or at the end of the file |
| `Scanning.SkipToNewline` | scanner.py:164-167 | the comment loop hangs exactly when no newline is left; otherwise it stops on the first newline, passing no other newline, and records nothing |
| `Scanning.SkipBlank` | scanner.py:160-169 | before classifying, `get_symbol` leaves the cursor on a non-space or at the end of the file, records nothing, and passes only blanks around at most one comment; a `#` after the leading blanks is passed as a whole comment, up to and including the newline that ends it |
| `Scanning.SkipComment` | scanner.py:164-169 | a comment is passed from its `#` to the first newline, and then the blanks after it |
| `Scanning.ReadWhile` | scanner.py:253-269 | the run read satisfies the predicate character by character, stops where it fails, and moves the cursor by the run's length |
| `Scanning.ReadWhileText` | scanner.py:253-261 | a non-empty run is exactly the text between the cursor before and after reading it |
| `Scanning.ReadWhilePosition` | scanner.py:276-287 | reading a run moves the column along by its length, or to the next line when a newline follows it |
| `Scanning.WordKind` | scanner.py:176-194 | a word becomes a heading, a device kind or a name; every non-heading carries an interned id for the word; the table and errors only grow |
| `Scanning.WordSymbol` | scanner.py:171-194 | an identifier is a HEADING, LOGIC or NAME symbol, consumes input, and is interned when it is LOGIC or NAME |
| `Scanning.NumberSymbol` | scanner.py:196-199 | a number consumes input, records nothing, and is a NUMBER symbol carrying its value |
| `Scanning.Classify` | scanner.py:171-249 | classification keeps the cursor invariant (including `error_count == len(errors)`); it returns EOF exactly at the end of the file, never INPUT or OUTPUT, and consumes input for every symbol with a kind other than EOF; a NUMBER carries its value and a LOGIC symbol one of the eight kind words |
| `Scanning.GetSymbol` | scanner.py:158-251 | `get_symbol` either hangs or returns a symbol; it keeps the cursor invariant and the error count; it only grows the table and errors; it never moves backwards, and it moves forwards for every symbol with a kind other than EOF; a NUMBER carries its value and a LOGIC symbol one of the eight kind words |
| `Scanning.AllSymbols` | scanner.py:148-156 | a symbol list that `get_all_symbols` returns ends with EOF and holds no earlier EOF; the scanner it leaves is at the end of the file, has kept every earlier error and name, and its name table holds the text of every NAME and LOGIC symbol returned at that symbol's id |
| `Scanning.KeywordsLowered` | scanner.py:135-141 | the keyword list is the heading list followed by the logic list, each word lower-cased |
| `ScanningProps.WordRun` | scanner.py:253-261 | the name of an identifier symbol is the maximal alphanumeric run at the cursor |
| `ScanningProps.RunIsMaximal` | scanner.py:253-269 | every non-empty run read is the maximal run of its class starting at the cursor |
| `ScanningProps.IdentifierClassification` | scanner.py:171-183 | a word is HEADING without an id exactly when it is a heading word, LOGIC exactly when it is a device kind, and NAME otherwise; LOGIC and NAME symbols carry the word's id, and the table grows by the word exactly when it was new |
| `ScanningProps.WordInterned` | scanner.py:178-183 | a word that is not a heading is interned, and it is LOGIC exactly when it is a device kind |
| `ScanningProps.ReservedWordName` | scanner.py:185-194 | a reserved word used as a name is still a NAME; exactly one INVALID_NAME is recorded, exactly when its lower-case form is a keyword, at `current_position - len(name)`, which is the column of its first character when no newline follows it |
| `ScanningProps.ReservedWordError` | scanner.py:185-194 | the INVALID_NAME error is placed the word's length back from where reading stopped, on the line where it stopped |
| `ScanningProps.ReservedNameAtLineEnd` | scanner.py:185-194 | a reserved word that ends its line is reported on the next line, at a negative column |
| `ScanningProps.NumberRun` | scanner.py:196-199 | a NUMBER is the maximal digit run at the cursor, with that run's decimal value as name and no id; nothing is recorded |
| `ScanningProps.PunctuationSymbol` | scanner.py:201-238 | each of `= . , ; ( ) [ ]` gives its own kind with that character as name, consumes exactly one character, and records nothing |
| `ScanningProps.PunctuationDistinct` | scanner.py:201-238 | the eight punctuation characters give eight different kinds, none of them a word, number or EOF kind |
| `ScanningProps.EofAtEnd` | scanner.py:240-242 | at the end of the file `get_symbol` returns EOF and leaves the scanner unchanged |
| `ScanningProps.EofIdempotent` | scanner.py:240-242 | once EOF has been returned, every further call returns the same EOF step again |
| `ScanningProps.AllSymbolsAtEnd` | scanner.py:148-156 | once the file is read, `get_all_symbols` returns exactly one symbol, EOF, and leaves the scanner unchanged |
| `ScanningProps.InvalidCharacterSymbol` | scanner.py:244-249 | a character that starts no symbol gives a symbol without a kind and exactly one INVALID_CHARACTER error at the cursor, and leaves the cursor where it was |
| `ScanningProps.ErrorSymbolAt` | scanner.py:244-249 | after an error symbol the cursor is still on the rejected character |
| `ScanningProps.InvalidCharacterRepeats` | scanner.py:244-249 | on a rejected character the next call rejects it again, adding one more error without moving |
| `ScanningProps.InvalidCharacterLoops` | scanner.py:148-156 | from a rejected character, `get_all_symbols` runs out of any bound on its iterations |
| `ScanningProps.InvalidCharacterStallsAllSymbols` | scanner.py:148-156 | once `get_symbol` returns an error symbol, `get_all_symbols` never finishes |
| `ScanningProps.SecondCommentIsInvalid` | scanner.py:164-169 | a second comment right after a comment line is an invalid character for that call |
| `ScanningProps.UnterminatedCommentHangs` | scanner.py:164-167 | a comment with no newline after it makes `get_symbol` loop for ever |
| `ScanningProps.LineAtSplits` | scanner.py:289-297 | line 0 is the text up to and including the first newline, and line k+1 is line k of the rest |
| `ScanningProps.LineAtNoNewline` | scanner.py:289-297 | a text without a newline is its own line 0, and every later line is empty |
| `ParseState.LookupNames` | parse.py:186-188 | `names.lookup` changes only the name table, returns one id per name indexing that name, and changes nothing when all the names are known |
| `ParseState.NextKindsScan` | parse.py:77-79 | the symbols `advance` reads next depend only on the scanner, not on the diagnostics, stored names or log |
| `DeviceParsing.KindOf` | parse.py:183-585 | a LOGIC name selects a device kind exactly when it is one of the eight kind words |
| `DeviceParsing.MakeRequest` | parse.py:189-194 | the request made for a device has the production's kind and parameter, and names the device |
| `DeviceParsing.Create` | parse.py:186-194 | one creation request per name of the batch, in order, each naming its device in the table, all with the same kind and parameter; no diagnostic is recorded |
| `DeviceParsing.ValidateDeviceName` | parse.py:104-115 | true for a NAME in neither the batch nor the stored names; false with exactly one NAME_DEFINED for a repeated NAME; None with exactly one INVALID_NAME for any other symbol; nothing is read |
| `DeviceParsing.CommaName` | parse.py:150-162 | one pass of the comma loop sees `=` exactly when the symbol after the comma is `=`, and accepts a name exactly when that symbol is a NAME in neither the batch nor the stored names (the name is stored, appended to the batch, and read past); otherwise it rejects with exactly one NAME_DEFINED or INVALID_NAME |
| `DeviceParsing.AfterComma` | parse.py:154-162 | the symbol after a comma: `=` ends the loop, and only `=` does; the pass continues exactly on a NAME in neither the batch nor the stored names, which is appended to the batch and stored; anything else is rejected with exactly one NAME_DEFINED or INVALID_NAME |
| `DeviceParsing.NameList` | parse.py:149-162 | without a comma the loop returns at once, valid; the names it adds are stored in order, and are distinct from each other, from the batch and from the names stored before; a valid list ends on a symbol other than a comma; a rejection records exactly one NAME_DEFINED or INVALID_NAME |
| `DeviceParsing.CommaThenName` | parse.py:149-162 | `, B` with a new name `B` and no comma after it is accepted: `B` is appended to the batch and stored, and the loop ends valid |
| `DeviceParsing.ParenParam` | parse.py:195-238 | `'(' NUMBER ')' ';'` creates the batch with that number, on the `;`, recording INVALID_NUMBER exactly when the number is out of range and nothing else; any other symbols create nothing and end with one SYNTAX_ERROR (after the INVALID_NUMBER of an out-of-range number); without `(` it is exactly one SYNTAX_ERROR |
| `DeviceParsing.ParamNumber` | parse.py:200-234 | after `(`: a NUMBER followed by `)` and `;` creates the batch with its value; a NUMBER followed by anything else is rejected; any other symbol records exactly one SYNTAX_ERROR and reads nothing |
| `DeviceParsing.NumberParam` | parse.py:201-230 | the number's range check: followed by `)` and `;` the batch is created with that very number; followed by anything else it is rejected |
| `DeviceParsing.BuiltFrom` | parse.py:203-230 | a range check followed by the creation of the batch on `;` is a build with that number; followed by one SYNTAX_ERROR it is a rejection |
| `DeviceParsing.CloseParam` | parse.py:208-230 | when `)` and `;` are the next two symbols the batch is created with no diagnostic; otherwise exactly one SYNTAX_ERROR is recorded and nothing is created |
| `DeviceParsing.Terminator` | parse.py:213-226 | when `;` is the next symbol the batch is created on it with no diagnostic; otherwise exactly one SYNTAX_ERROR is recorded and nothing is created |
| `DeviceParsing.ParseLogicGate` | parse.py:183-585 | a kind other than CLOCK on a bare `;` creates the batch with its default (2 inputs, or switch output 0) and records nothing; for every kind but DTYPE, `'(' NUMBER ')' ';'` creates the batch with that number, with INVALID_NUMBER exactly when it is out of range (gates 1-16, XOR exactly 2, CLOCK at least 1, SWITCH 0 or 1); any symbols the kind's production does not accept create nothing and end with one SYNTAX_ERROR; stored names are never changed |
| `DeviceParsing.OutOfRangeStillCreates` | parse.py:195-230 | an out-of-range parameter, for instance `AND(17);`, records exactly one INVALID_NUMBER and still creates the devices with that parameter |
| `DeviceParsing.ParseDeviceLine` | parse.py:141-181 | a first symbol that is not a NAME records one INVALID_NAME and a repeated first name one NAME_DEFINED, both without reading; the first name is never stored; any devices created are exactly the first name and the newly stored names, in order, all of one kind and parameter; a statement that records no diagnostic creates exactly those names with an in-range parameter; only creations are issued |
| `DeviceParsing.AfterFirstName` | parse.py:145-147 | after the first name, whatever is created is the first name followed by the names stored after it, and the first name is not among them; when no diagnostic is recorded, exactly those names are created with an in-range parameter |
| `DeviceParsing.NamesAndRest` | parse.py:149-181 | the comma loop and the rest of the statement create the first name and the stored names, in order; when no diagnostic is recorded, they are created with an in-range parameter |
| `DeviceParsing.FirstNameApart` | parse.py:145-159 | the comma loop's batch is the first name followed by the names it stored, and the first name is not among the stored ones |
| `DeviceParsing.DeviceLineRest` | parse.py:164-181 | without `=` there is exactly one SYNTAX_ERROR; otherwise anything created is the batch; when no diagnostic is recorded, `=` was there and the batch is created with an in-range parameter |
| `DeviceParsing.GateAndAdvance` | parse.py:168-172 | when anything is created, the LOGIC word named a kind and the batch was created with it; for a kind word, recording no diagnostic means the batch was created with an in-range parameter |
| `DeviceParsing.GateStatementCreates` | parse.py:141-194 | `A = K ;` with a new name `A` and any kind `K` but CLOCK creates `A` with K's default and records nothing; `A` is not stored, so the same statement later creates `A` again |
| `DeviceParsing.TwoNameStatementCreates` | parse.py:141-194 | `A , B = K ;` with new, distinct names and any kind `K` but CLOCK creates `A` then `B` with K's default and records nothing; only `B` is stored |
| `DeviceParsing.TwoNames` | parse.py:141-164 | `A , B` with both names new and no further comma leads to the `'=' ...` rest with the batch `[A, B]` and `B` stored |
| `DeviceParsing.StatementIsGate` | parse.py:141-172 | for `A = K` with a new name `A`, the statement is K's production and the `advance` after it, with nothing recorded or stored before |
| `DeviceParsing.SingleName` | parse.py:141-164 | a new first name with no comma after it leads straight to the `'=' ...` rest with a batch of that one name |
| `DeviceParsing.RestIsGate` | parse.py:164-172 | `=` followed by a LOGIC symbol leads to that kind's production after both are read |
| `DeviceParsing.GateOnSemicolon` | parse.py:168-194 | a kind other than CLOCK on `;`, then the `advance`: the batch is created with the kind's default and nothing is recorded or stored |
| `DeviceParsing.ParseDevices` | parse.py:117-139 | the devices loop ends at `[`, or with SYNTAX_ERROR at a heading or the end of the file, or with OVERFLOW_ERROR, and issues only creations |
| `DeviceParsing.DevicesIteration` | parse.py:119-139 | one statement and the rest of the loop end as the loop does |
| `DeviceParsing.DevicesStall` | parse.py:117-144 | a statement that does not start with a name reads nothing, so the loop records INVALID_NAME on each of the remaining 500 iterations and then OVERFLOW_ERROR |
| `DeviceParsing.Header` | parse.py:81-102 | a header is accepted exactly when `[`, HEADING(word) and `]` lie ahead; otherwise exactly one INVALID_HEADER is recorded and nothing else; without `[` nothing is read |
| `DeviceParsing.HeaderWord` | parse.py:85-99 | accepted exactly when the expected heading word is followed by `]`; a different symbol records exactly one INVALID_HEADER without reading |
| `DeviceParsing.HeaderClose` | parse.py:89-96 | accepted exactly on `]`; otherwise exactly one INVALID_HEADER without reading |
| `DeviceParsing.ParseDevicesBlock` | parse.py:81-102 | a section not headed `[devices]` records exactly one INVALID_HEADER and nothing else; after `[devices]` the statement loop ends at `[`, with SYNTAX_ERROR at a heading or the end of the file, or with OVERFLOW_ERROR; only creations are issued |
| `ConnParsing.PinPatternIsRegex` | parse.py:635-637 | the decision by the last two characters agrees, both ways, with what the regular expression of line 635 matches |
| `ConnParsing.PinPatternAcceptsDocumentedPins` | parse.py:633-635 | every pin name I1 to I16, the range the doc comment of `check_inputs_name` gives, passes the pattern |
| `ConnParsing.PinPatternBeyondSixteen` | parse.py:633-635 | the pattern also takes I17, I99, IX5 and I110, and refuses I0, I20, I and Q1 |
| `ConnParsing.CheckInputsName` | parse.py:632-644 | a pin name passes exactly when it matches the pattern or is a flip-flop pin name; a rejection records exactly one INVALID_NAME; a number raises TypeError |
| `ConnParsing.ValidateForConns` | parse.py:646-653 | the check passes exactly when the name is in the table; otherwise exactly one INVALID_NAME |
| `ConnParsing.ExistenceCheckIneffective` | parse.py:646-653 | every scanned NAME passes the existence check, defined as a device or not |
| `ConnParsing.ConnLoop` | parse.py:680-705 | the loop stops at once on `;` or the end of the file; the devices it collects are in the name table, each adding at most one pin name; it issues no request |
| `ConnParsing.ConnItem` | parse.py:684-705 | one item appends its device and at most one pin name |
| `ConnParsing.PinItem` | parse.py:688-705 | the `'.' pin` part adds at most one pin name |
| `ConnParsing.PinName` | parse.py:692-705 | an accepted pin name is appended as read |
| `ConnParsing.Separator` | parse.py:696-705 | `;` or `,` after a pin is read past, with the flag true exactly on `;`; anything else is left unread |
| `ConnParsing.ConnLoopStalls` | parse.py:680-686 | a symbol that is not a known name is never read past, so the loop never ends |
| `ConnParsing.OutputTag` | parse.py:664-673 | after the first device, without a dot nothing happens; after a dot the tag is Q, QBAR or nothing, and only diagnostics may be added |
| `ConnParsing.OutputTagReads` | parse.py:664-673 | after a dot, a pin name Q or QBAR becomes the tag and is read past; any other symbol records exactly INVALID_PIN, is not read past and gives no tag |
| `ConnParsing.OutputPin` | parse.py:716-727 | with as many pin names as devices, a first pin Q or QBAR becomes the Q or QBAR output pin and is removed, any other first pin is a KeyError, and no pin names at all is an IndexError; with a different count there is no output pin and the names are kept |
| `ConnParsing.InputPin` | parse.py:729-756 | CLK, DATA, SET and CLEAR resolve to exactly the registry's clock, data, set and clear pin ids, reading and recording nothing; any other name never resolves: it records INVALID_PIN or INVALID_DEVICE, or raises |
| `ConnParsing.FixedPin` | parse.py:733-738 | the pin table maps exactly the four flip-flop input names |
| `ConnParsing.NumberedPinNeverConnects` | parse.py:740-756 | `I<n>` records INVALID_DEVICE for an unknown device, INVALID_PIN when the device has at least n inputs, and IndexError otherwise, so it never resolves |
| `ConnParsing.ConnectInputs` | parse.py:729-764 | when every destination names CLK, DATA, SET or CLEAR, the requests are exactly `Wires`: one connection per destination whose pin id is a true value, in order; with fewer pin names than destinations the loop always raises, an IndexError when the pin names it meets are flip-flop inputs; every request connects the statement's output to a flip-flop input of a destination |
| `ConnParsing.Wires` | parse.py:729-760 | the connections destinations call for: at most one per destination, each from the statement's output to a flip-flop input of a destination |
| `ConnParsing.WiresEveryDestination` | parse.py:729-760 | when no flip-flop input has id 0, every destination is connected: the `j`-th request goes to the `j`-th destination and its pin |
| `ConnParsing.ConnectOne` | parse.py:729-764 | a flip-flop port whose pin id is not 0 issues exactly one connection from the output to that pin and records nothing; with pin id 0 nothing happens; any other port issues nothing and records exactly one diagnostic, or raises |
| `ConnParsing.Connect` | parse.py:707-764 | without an output pin and with one flip-flop pin name per destination, the requests are exactly those `Wires` gives from the first device's id; with a first pin Q or QBAR they carry that output pin; fewer pin names than destinations raise; a KeyError arises only when the first of as many pin names as devices is neither Q nor QBAR; every request connects to a flip-flop pin |
| `ConnParsing.ParseConnsLine` | parse.py:655-769 | an unknown first symbol records INVALID_NAME then INVALID_DEVICE without reading; otherwise only connections to flip-flop pins are issued, and the output-pin lookup never raises |
| `ConnParsing.ConnStatementConnects` | parse.py:655-764 | `A = B.CLK;` or `A = B.DATA;` with a known `A` records nothing and issues exactly one connection from `A` to that pin of `B`, when the pin id is not 0 |
| `ConnParsing.StatementIsConnect` | parse.py:655-707 | `A = B.P;` is read as far as the `;`, collecting `B` and `P`, and then connected as `Connect` does |
| `ConnParsing.OneItemLoop` | parse.py:680-701 | `B.P;` with a flip-flop pin name `P` is collected and ends the loop past the `;` |
| `ConnParsing.ConnsLineRest` | parse.py:660-764 | after the first device, only connections to flip-flop pins are issued |
| `ConnParsing.Destinations` | parse.py:676-764 | the destinations after `=` issue only connections to flip-flop pins |
| `ConnParsing.CollectAndConnect` | parse.py:680-764 | collection followed by connection issues only connections to flip-flop pins |
| `ConnParsing.ParseConns` | parse.py:610-630 | the connections loop ends as the devices loop does and issues only connections to flip-flop pins |
| `ConnParsing.ConnsIteration` | parse.py:612-630 | one statement and the rest of the loop end as the loop does |
| `ConnParsing.ConnsStall` | parse.py:610-659 | a statement starting with an unknown name, a number or stray punctuation reads nothing, so the loop records INVALID_NAME and INVALID_DEVICE on each remaining iteration and then OVERFLOW_ERROR |
| `ConnParsing.ParseConnsBlock` | parse.py:587-608 | a section not headed `[conns]` records exactly one INVALID_HEADER and nothing else; after `[conns]` the statement loop ends as the devices loop does; only connections to flip-flop pins are issued |
| `NetworkParsing.NewParser` | parse.py:45-54 | a new parser has read its first symbol and recorded nothing |
| `NetworkParsing.SplitAfterCreations` | parse.py:72-73 | creations followed by connections split exactly where the connections begin |
| `NetworkParsing.ParseNetwork` | parse.py:65-75 | the result is always True; from an empty log, all creations precede all connections |
| `NetworkParsing.Parse` | parse.py:45-75 | a whole pass reports True, and its log is creations followed by connections |
| `NetworkParsing.HeaderlessFileAccepted` | parse.py:65-102 | a file not starting with `[` gets exactly two INVALID_HEADER diagnostics and nothing else, and is still reported as parsed |
| `NetworkParsing.EmptyFileAccepted` | parse.py:65-75 | the empty file is accepted with two INVALID_HEADER diagnostics and no request |

## Left out

- File access. `open`, `read`, `seek` and `tell`, and the FileNotFoundError they raise (scanner.py:125-129, 278-281, 292-296), are replaced by an in-memory character sequence.
- `print` side effects in `advance`, in the connection loop, for `make_connection` errors and for invalid characters. None of them affects state.
- The message strings of `ScannerError` and `Error`. Only codes, lines, line texts and columns are kept.
- The internals of the name table, the device registry, the network and the monitors. The name table is a sequence of distinct interned names, with ids as indices. The registry is an `Env` parameter: the flip-flop pin ids, and `get_device` as a map from id to an optional ordered input-pin list. The output device's `get_device` result (parse.py:709) is never used and is not modelled.
- The status `make_connection` returns is only printed (parse.py:762-764), so the model logs the request and drops the status.
- `query` on a NUMBER symbol, whose name is an int, is taken to return None. The name table's code is not part of this model.
- `parse_monit_block` and `parse_monit` (parse.py:771-813) are never called by `parse_network`. The commented-out block (parse.py:815-921) is not code.
- components/ui/colors.py holds UI colour constants. test_parser.py holds only fixtures, with no assertions.
- Character classes are ASCII only. Python's `isalpha`, `isdigit`, `isspace` and `lower` also act on other Unicode characters.
- `int()` on a pin suffix is modelled for suffixes made of letters and digits only, which is all a scanned name can hold.
- The regular expression is decided by `ConnParsing.PinPattern`. `ConnParsing.PinPatternIsRegex` proves that it agrees with the expression's meaning. Regular-expression matching in general is not modelled.
- ConnParsing.ConnLoop: the connection loop (parse.py:680-705) has no guard in the source. A `fuel` bound on its iterations gives `OutOfFuel` where the source would loop for ever.
- Scanning.AllSymbols: `fuel` bounds the `get_all_symbols` loop. It never ends once an invalid character is met.
- The parse functions do not state the absolute positions of their diagnostics, except where a lemma gives them (the stalls, the headerless file). All diagnostics are built by `add_error` at the scanner's position.

=== FILE: charclass.dfy ===
/** Character classes and number conversion as Python's `str` methods and
    `int()` apply them to the ASCII characters of a definition file. */
module CharClass {

  import opened Wrappers

  predicate IsAlpha(c: char) {
    'a' <= c <= 'z' || 'A' <= c <= 'Z'
  }

  predicate IsDigit(c: char) {
    '0' <= c <= '9'
  }

  predicate IsAlnum(c: char) {
    IsAlpha(c) || IsDigit(c)
  }

  /** `str.isspace` on ASCII: tab, newline, vertical tab, form feed,
      carriage return, the four separators 0x1C..0x1F, and space. */
  predicate IsSpace(c: char) {
    c == ' ' || '\t' <= c <= '\r' || '\U{1C}' <= c <= '\U{1F}'
  }

  function LowerChar(c: char): (r: char)
    ensures IsAlpha(c) ==> IsAlpha(r) && 'a' <= r <= 'z'
    ensures !('A' <= c <= 'Z') ==> r == c
  {
    if 'A' <= c <= 'Z' then (c as int + 32) as char else c
  }

  /** `str.lower` on ASCII text. */
  function Lower(s: string): (r: string)
    ensures |r| == |s|
    ensures forall i :: 0 <= i < |s| ==> r[i] == LowerChar(s[i])
  {
    if s == [] then [] else [LowerChar(s[0])] + Lower(s[1..])
  }

  predicate AllDigits(s: string) {
    forall i :: 0 <= i < |s| ==> IsDigit(s[i])
  }

  function DigitValue(c: char): (r: nat)
    requires IsDigit(c)
    ensures r < 10
  {
    c as int - '0' as int
  }

  function DigitChar(d: nat): (r: char)
    requires d < 10
    ensures IsDigit(r) && DigitValue(r) == d
  {
    ('0' as int + d) as char
  }

  /** The value of a run of decimal digits, most significant first. */
  function DecimalValue(s: string): nat
    requires AllDigits(s)
  {
    if s == [] then 0 else 10 * DecimalValue(s[..|s| - 1]) + DigitValue(s[|s| - 1])
  }

  /** The decimal spelling of `n` (Python's `str(n)` for n >= 0). */
  function Decimal(n: nat): (r: string)
    ensures |r| > 0 && AllDigits(r)
  {
    if n < 10 then [DigitChar(n)] else Decimal(n / 10) + [DigitChar(n % 10)]
  }

  /** Reading back the spelling of a number gives the number. */
  lemma {:induction false} DecimalRoundTrip(n: nat)
    ensures DecimalValue(Decimal(n)) == n
  {
    if n >= 10 {
      var s := Decimal(n);
      assert s[..|s| - 1] == Decimal(n / 10);
      DecimalRoundTrip(n / 10);
    }
  }

  /** Python's `int(s)` on a string of letters and digits: defined exactly
      when `s` is a non-empty run of digits, otherwise a ValueError. */
  function ParseInt(s: string): (r: Option<nat>)
    ensures r.Some? <==> |s| > 0 && AllDigits(s)
  {
    if |s| > 0 && AllDigits(s) then Some(DecimalValue(s)) else None
  }
}

=== FILE: conn_parsing.dfy ===
/** The `[conns]` section of parse.py: connection statements
    `dev ['.' Q|QBAR] '=' dev '.' pin (',' dev '.' pin)* ';'`, the checks on
    device and pin names, and the requests the statement turns into. */
module ConnParsing {

  import opened Wrappers
  import opened CharClass
  import NameTable
  import opened Scanning
  import opened ParseState
  import DeviceParsing

  /** The alternative `([1-9]|1[0-6])` that must end a pin name. */
  predicate PinNumberTail(t: string) {
    || (|t| == 1 && '1' <= t[0] <= '9')
    || (|t| == 2 && t[0] == '1' && '0' <= t[1] <= '6')
  }

  /** What the regular expression `^I.*([1-9]|1[0-6])$` of
      `check_inputs_name` matches, read off its definition: an `I`, any
      characters, then a tail of the alternative. Names never hold a
      newline, so `.` and `$` need no special case. */
  ghost predicate RegexMatch(s: string) {
    |s| > 0 && s[0] == 'I' && exists k :: 1 <= k <= |s| && PinNumberTail(s[k..])
  }

  /** The same pattern decided from the last two characters: an `I` followed
      by at least one character, ending in 1-9 or in `10`. (`11`-`16` already
      end in 1-6.) */
  predicate PinPattern(s: string) {
    && |s| >= 2 && s[0] == 'I'
    && ('1' <= s[|s| - 1] <= '9' || (|s| >= 3 && s[|s| - 2] == '1' && s[|s| - 1] == '0'))
  }

  /** The direct decision agrees with the regular expression, both ways. */
  lemma PinPatternIsRegex(s: string)
    ensures PinPattern(s) <==> RegexMatch(s)
  {
    if PinPattern(s) {
      if '1' <= s[|s| - 1] <= '9' {
        assert PinNumberTail(s[|s| - 1..]);
      } else {
        assert PinNumberTail(s[|s| - 2..]);
      }
    }
    if RegexMatch(s) {
      var k :| 1 <= k <= |s| && PinNumberTail(s[k..]);
      assert s[k..][|s[k..]| - 1] == s[|s| - 1];
      if |s[k..]| == 2 {
        assert s[k..][0] == s[|s| - 2];
      }
    }
  }

  /** Every pin name `I1` to `I16` passes, as the doc comment of
      `check_inputs_name` (parse.py:633) promises. */
  lemma PinPatternAcceptsDocumentedPins(n: nat)
    requires 1 <= n <= 16
    ensures PinPattern("I" + Decimal(n))
  {
    if n < 10 {
      assert Decimal(n) == [DigitChar(n)];
    } else {
      assert Decimal(n) == Decimal(1) + [DigitChar(n - 10)];
    }
  }

  /** The pattern is wider than pins 1 to 16: it takes `I17`, `I99` and
      `IX5`, and still refuses `I0` and `I20`. */
  lemma PinPatternBeyondSixteen()
    ensures PinPattern("I17") && PinPattern("I99") && PinPattern("IX5") && PinPattern("I110")
    ensures !PinPattern("I0") && !PinPattern("I20") && !PinPattern("I") && !PinPattern("Q1")
  {
  }

  /** The flip-flop pin names `check_inputs_name` accepts besides the pattern. */
  const DTypePinNames: seq<string> := ["CLK", "DATA", "Q", "QBAR"]

  /** `check_inputs_name` on the current symbol's name: a NUMBER's value is
      an int, on which the regular expression raises a TypeError; a string
      passes when it matches the pattern or is a flip-flop pin name, and
      otherwise records INVALID_NAME. */
  function CheckInputsName(p: Parser): (r: Outcome<(bool, Parser)>)
    requires p.Valid()
    ensures r.Done? || (r.Crash? && r.fault == TypeError)
    ensures r.Crash? <==> p.sym.name.Num?
    ensures r.Done? ==> (r.value.0 <==> PinPattern(p.sym.name.text) || p.sym.name.text in DTypePinNames)
    ensures r.Done? && r.value.0 ==> r.value.1 == p
    ensures r.Done? && !r.value.0 ==> r.value.1 == p.AddError(Code.InvalidName)
  {
    match p.sym.name
    case Num(_) => Crash(TypeError)
    case Text(w) =>
      if PinPattern(w) || w in DTypePinNames then Done((true, p))
      else Done((false, p.AddError(Code.InvalidName)))
  }

  /** `validate_device_name_for_conns`: the current symbol's name must be in
      the name table, otherwise INVALID_NAME. A NUMBER's value is never a
      key of the table. Nothing is read. */
  function ValidateForConns(p: Parser): (r: (bool, Parser))
    requires p.Valid()
    ensures r.0 <==> p.sym.name.Text? && p.sym.name.text in p.scan.names
    ensures r.0 ==> r.1 == p
    ensures !r.0 ==> r.1 == p.AddError(Code.InvalidName)
  {
    var known := match p.sym.name
      case Num(_) => false
      case Text(w) => NameTable.Query(p.scan.names, w).Some?;
    if known then (true, p) else (false, p.AddError(Code.InvalidName))
  }

  /** The scanner interns every NAME it reads, so the existence check passes
      for any name at all, defined in the devices section or not. */
  lemma ExistenceCheckIneffective(p: Parser)
    requires p.Valid() && p.At(Name)
    ensures ValidateForConns(p).0
  {
  }

  /** `devs'` and `ports'` extend `devs` and `ports`; every device added is
      in the name table and contributed at most one pin name. */
  predicate Collected(names: seq<string>, devs: seq<string>, ports: seq<string>, devs': seq<string>, ports': seq<string>) {
    && devs <= devs' && ports <= ports'
    && |ports'| - |ports| <= |devs'| - |devs|
    && forall j :: |devs| <= j < |devs'| ==> devs'[j] in names
  }

  /** The `while` loop of `parse_conns_line` (lines 680-705): until a `;` or
      the end of the file, read `dev ['.' pin] [',' | ';']` items, appending
      each known device and each accepted pin name. A `;` after a pin is read
      past and ends the loop; a `;` anywhere else ends it unread. A symbol
      that is not a known name records INVALID_NAME and reads nothing, so
      the loop does not end; `fuel` bounds its iterations. */
  function ConnLoop(p: Parser, devs: seq<string>, ports: seq<string>, fuel: nat)
    : (r: Outcome<(Parser, seq<string>, seq<string>)>)
    requires p.Valid()
    ensures r.Done? || r.Hang? || r.OutOfFuel? || (r.Crash? && r.fault == TypeError)
    ensures r.Done? ==> Follows(p, r.value.0) && r.value.0.stored == p.stored && r.value.0.log == p.log
    ensures r.Done? ==> Collected(r.value.0.scan.names, devs, ports, r.value.1, r.value.2)
    ensures (p.At(Semicolon) || p.At(Eof)) ==> r == Done((p, devs, ports))
    decreases fuel
  {
    if p.At(Semicolon) || p.At(Eof) then Done((p, devs, ports))
    else if fuel == 0 then OutOfFuel
    else
      var (ok, p1) := ValidateForConns(p);
      if !ok then
        var r := ConnLoop(p1, devs, ports, fuel - 1);
        if r.Done? then
          FollowsTransitive(p, p1, r.value.0);
          r
        else r
      else
        var (p2, devs2, ports2, stop) :- ConnItem(p1, devs, ports);
        if stop then Done((p2, devs2, ports2))
        else
          var r := ConnLoop(p2, devs2, ports2, fuel - 1);
          if r.Done? then
            FollowsTransitive(p, p2, r.value.0);
            CollectedTrans(p2.scan.names, r.value.0.scan.names, devs, ports, devs2, ports2, r.value.1, r.value.2);
            r
          else r
  }

  /** `Collected` composes along the loop. */
  lemma CollectedTrans(names: seq<string>, names': seq<string>, devs: seq<string>, ports: seq<string>,
                       devs2: seq<string>, ports2: seq<string>, devs3: seq<string>, ports3: seq<string>)
    requires names <= names'
    requires Collected(names, devs, ports, devs2, ports2)
    requires Collected(names', devs2, ports2, devs3, ports3)
    ensures Collected(names', devs, ports, devs3, ports3)
  {
    forall j | |devs| <= j < |devs3|
      ensures devs3[j] in names'
    {
      if j < |devs2| {
        assert devs3[j] == devs2[j];
      }
    }
  }

  /** One item of the connection loop, on a known device name: the device
      is appended and read past; then an optional `'.' pin` and separator.
      The flag is true when the item ended with a `;`, which is read past. */
  function ConnItem(p: Parser, devs: seq<string>, ports: seq<string>)
    : (r: Outcome<(Parser, seq<string>, seq<string>, bool)>)
    requires p.Valid() && p.sym.name.Text? && p.sym.name.text in p.scan.names
    ensures r.Done? || r.Hang? || (r.Crash? && r.fault == TypeError)
    ensures r.Done? ==> Follows(p, r.value.0) && r.value.0.stored == p.stored && r.value.0.log == p.log
    ensures r.Done? ==> r.value.1 == devs + [p.sym.name.text]
    ensures r.Done? ==> r.value.2 == ports || (|r.value.2| == |ports| + 1 && ports <= r.value.2)
  {
    var p1 :- p.Advance();
    var devs1 := devs + [p.sym.name.text];
    if !p1.At(Dot) then Done((p1, devs1, ports, false))
    else
      var r :- PinItem(p1, ports);
      FollowsTransitive(p, p1, r.0);
      Done((r.0, devs1, r.1, r.2))
  }

  /** The `'.' pin [',' | ';']` part of an item, on the dot. */
  function PinItem(p: Parser, ports: seq<string>): (r: Outcome<(Parser, seq<string>, bool)>)
    requires p.Valid() && p.At(Dot)
    ensures r.Done? || r.Hang? || (r.Crash? && r.fault == TypeError)
    ensures r.Done? ==> Follows(p, r.value.0) && r.value.0.stored == p.stored && r.value.0.log == p.log
    ensures r.Done? ==> r.value.1 == ports || (|r.value.1| == |ports| + 1 && ports <= r.value.1)
  {
    var p1 :- p.Advance();
    var r :- PinName(p1, ports);
    FollowsTransitive(p, p1, r.0);
    Done(r)
  }

  /** The pin name after the dot: one that is not a known name records
      INVALID_NAME and ends the item; a known one is appended to the pins
      and the separator after it is read. */
  function PinName(p: Parser, ports: seq<string>): (r: Outcome<(Parser, seq<string>, bool)>)
    requires p.Valid()
    ensures r.Done? || r.Hang? || (r.Crash? && r.fault == TypeError)
    ensures r.Done? ==> Follows(p, r.value.0) && r.value.0.stored == p.stored && r.value.0.log == p.log
    ensures r.Done? ==> r.value.1 == ports || (p.sym.name.Text? && r.value.1 == ports + [p.sym.name.text])
  {
    var (ok, p1) :- CheckInputsName(p);
    if !ok then Done((p1, ports, false))
    else
      var p2 :- p1.Advance();
      FollowsTransitive(p, p1, p2);
      var (p3, last) :- Separator(p2);
      FollowsTransitive(p, p2, p3);
      Done((p3, ports + [p.sym.name.text], last))
  }

  /** The separator after a pin: `;` ends the list, `,` continues it, and
      anything else is left for the loop to look at. */
  function Separator(p: Parser): (r: Outcome<(Parser, bool)>)
    requires p.Valid()
    ensures r.Done? || r.Hang?
    ensures r.Done? ==> Follows(p, r.value.0) && r.value.0.stored == p.stored && r.value.0.log == p.log
    ensures r.Done? ==> (r.value.1 <==> p.At(Semicolon))
    ensures r.Done? && !p.At(Semicolon) && !p.At(Comma) ==> r.value.0 == p
  {
    if p.At(Semicolon) || p.At(Comma) then
      var p1 :- p.Advance();
      Done((p1, p.At(Semicolon)))
    else Done((p, false))
  }

  /** A symbol that is neither a known name nor `;` nor the end of the file
      is never read past: the connection loop records INVALID_NAME on it
      again and again and runs out of any fuel. */
  lemma {:induction false} ConnLoopStalls(p: Parser, devs: seq<string>, ports: seq<string>, fuel: nat)
    requires p.Valid() && !p.At(Semicolon) && !p.At(Eof)
    requires !(p.sym.name.Text? && p.sym.name.text in p.scan.names)
    ensures ConnLoop(p, devs, ports, fuel) == OutOfFuel
    decreases fuel
  {
    if fuel > 0 {
      ConnLoopStalls(p.AddError(Code.InvalidName), devs, ports, fuel - 1);
    }
  }

  /** The optional `'.' (Q | QBAR)` after a statement's first device, on the
      symbol after it: a pin name other than Q or QBAR records INVALID_PIN
      and is not read past. */
  function OutputTag(p: Parser): (r: Outcome<(Parser, seq<string>)>)
    requires p.Valid()
    ensures r.Done? || r.Hang?
    ensures r.Done? ==> Follows(p, r.value.0) && r.value.0.stored == p.stored && r.value.0.log == p.log
    ensures r.Done? ==> r.value.1 == [] || r.value.1 == ["Q"] || r.value.1 == ["QBAR"]
    ensures !p.At(Dot) ==> r == Done((p, []))
  {
    if !p.At(Dot) then Done((p, []))
    else
      var p1 :- p.Advance();
      if p1.sym.name == Text("Q") || p1.sym.name == Text("QBAR") then
        var p2 :- p1.Advance();
        FollowsTransitive(p, p1, p2);
        Done((p2, [p1.sym.name.text]))
      else
        FollowsTransitive(p, p1, p1.AddError(InvalidPin));
        Done((p1.AddError(InvalidPin), []))
  }

  /** On a dot, the output tag is exactly the pin name after it when that is
      Q or QBAR, which is read past; any other symbol records INVALID_PIN,
      is not read past, and gives no tag. */
  lemma OutputTagReads(p: Parser)
    requires p.Valid() && p.At(Dot)
    ensures match p.Advance()
      case Done(q) =>
        if !OutputName(q) then OutputTag(p) == Done((q.AddError(InvalidPin), []))
        else (match q.Advance()
              case Done(q') => OutputTag(p) == Done((q', [q.sym.name.text]))
              case _ => OutputTag(p).Hang?)
      case _ => OutputTag(p).Hang?
  {
  }

  /** The symbol after the dot names a flip-flop output, Q or QBAR. */
  predicate OutputName(p: Parser) {
    p.sym.name == Text("Q") || p.sym.name == Text("QBAR")
  }

  /** The output pin a statement names (lines 708-727): when there are as
      many pin names as devices the first pin name is the output's, Q or
      QBAR, and is removed; otherwise there is no output pin. Any other first
      name would be a KeyError. */
  function OutputPin(pins: DTypePins, devices: nat, ports: seq<string>): (r: Outcome<(Option<nat>, seq<string>)>)
    ensures r.Done? || (r.Crash? && (r.fault == KeyError || r.fault == IndexError))
    ensures r.Done? && r.value.0.Some? ==>
      |ports| == devices && |ports| > 0 && r.value.1 == ports[1..]
      && ((ports[0] == "Q" && r.value.0.value == pins.q) || (ports[0] == "QBAR" && r.value.0.value == pins.qbar))
    ensures |ports| != devices ==> r == Done((None, ports))
    ensures |ports| == devices && |ports| > 0 && ports[0] == "Q" ==> r == Done((Some(pins.q), ports[1..]))
    ensures |ports| == devices && |ports| > 0 && ports[0] == "QBAR" ==> r == Done((Some(pins.qbar), ports[1..]))
    ensures |ports| == devices && |ports| > 0 && ports[0] != "Q" && ports[0] != "QBAR" ==> r == Crash(KeyError)
    ensures |ports| == devices == 0 ==> r == Crash(IndexError)
  {
    if |ports| != devices then Done((None, ports))
    else if |ports| == 0 then Crash(IndexError)
    else if ports[0] == "Q" then Done((Some(pins.q), ports[1..]))
    else if ports[0] == "QBAR" then Done((Some(pins.qbar), ports[1..]))
    else Crash(KeyError)
  }

  /** Python's truth value of `input_id`: None and the id 0 are false. */
  predicate Truthy(pin: Option<nat>) {
    pin.Some? && pin.value != 0
  }

  /** The input pin one destination names (lines 729-752): CLK, DATA, SET and
      CLEAR are the flip-flop's pins. For any other name the number after its
      first letter is parsed (a ValueError when it is not one), and then the
      check is the wrong way round: an index within the device's inputs
      records INVALID_PIN, and one beyond them is looked up anyway, an
      IndexError. An unknown device records INVALID_DEVICE. */
  function InputPin(p: Parser, env: Env, device: nat, port: string): (r: Outcome<(Option<nat>, Parser)>)
    requires p.Valid()
    ensures r.Done? || (r.Crash? && (r.fault == ValueError || r.fault == IndexError))
    ensures r.Done? && r.value.0.Some? ==>
      r.value.1 == p && FlipFlopInput(r.value.0.value, env.pins)
    ensures r.Done? && r.value.0.None? ==>
      r.value.1 == p.AddError(InvalidPin) || r.value.1 == p.AddError(InvalidDevice)
    ensures port in {"CLK", "DATA", "SET", "CLEAR"} ==> r.Done? && r.value.0.Some?
    ensures FixedPin(env.pins, port).Some? ==> r == Done((FixedPin(env.pins, port), p))
    ensures r.Done? && FixedPin(env.pins, port).None? ==> r.value.0.None?
  {
    if port == "CLK" then Done((Some(env.pins.clk), p))
    else if port == "DATA" then Done((Some(env.pins.data), p))
    else if port == "SET" then Done((Some(env.pins.setPin), p))
    else if port == "CLEAR" then Done((Some(env.pins.clear), p))
    else
      match ParseInt(if |port| == 0 then "" else port[1..])
      case None => Crash(ValueError)
      case Some(n) =>
        var index: int := n - 1;
        match env.device(device)
        case None => Done((None, p.AddError(InvalidDevice)))
        case Some(inputs) =>
          if index < |inputs| then Done((None, p.AddError(InvalidPin)))
          else Crash(IndexError)
  }

  /** The flip-flop pin id the table of lines 733-738 gives a port name,
      None for any other name. */
  function FixedPin(pins: DTypePins, port: string): (r: Option<nat>)
    ensures r.Some? <==> port in {"CLK", "DATA", "SET", "CLEAR"}
    ensures r.Some? ==> FlipFlopInput(r.value, pins)
  {
    match port
    case "CLK" => Some(pins.clk)
    case "DATA" => Some(pins.data)
    case "SET" => Some(pins.setPin)
    case "CLEAR" => Some(pins.clear)
    case _ => None
  }

  /** Numbered pins never connect: whatever the device, `I<n>` gives an
      INVALID_PIN when the device has at least `n` inputs, an INVALID_DEVICE
      when it is unknown, and an IndexError otherwise. */
  lemma NumberedPinNeverConnects(p: Parser, env: Env, device: nat, n: nat)
    requires p.Valid() && 1 <= n
    ensures var r := InputPin(p, env, device, "I" + Decimal(n));
      && (env.device(device).None? ==> r == Done((None, p.AddError(InvalidDevice))))
      && (env.device(device).Some? && n <= |env.device(device).value| ==> r == Done((None, p.AddError(InvalidPin))))
      && (env.device(device).Some? && n > |env.device(device).value| ==> r == Crash(IndexError))
  {
    var port := "I" + Decimal(n);
    assert port[1..] == Decimal(n);
    DecimalRoundTrip(n);
    assert ParseInt(port[1..]) == Some(n);
  }

  /** A request connecting output `outPin` of device `out` to a flip-flop
      input pin of one of the destinations `ins`. */
  predicate FlipFlopConnection(r: Request, out: Option<nat>, outPin: Option<nat>, ins: seq<nat>, pins: DTypePins) {
    && r.MakeConnection? && r.outDevice == out && r.outPin == outPin && r.inDevice in ins
    && FlipFlopInput(r.inPin, pins) && r.inPin != 0
  }

  /** `pin` is one of the flip-flop's input pins. */
  predicate FlipFlopInput(pin: nat, pins: DTypePins) {
    pin == pins.clk || pin == pins.data || pin == pins.setPin || pin == pins.clear
  }

  /** Every request `log'` adds to `log` connects something to a flip-flop
      input pin. */
  predicate ToFlipFlopPins(log: seq<Request>, log': seq<Request>, pins: DTypePins) {
    && log <= log'
    && forall m :: |log| <= m < |log'| ==> log'[m].MakeConnection? && FlipFlopInput(log'[m].inPin, pins)
  }

  /** The `for` loop of lines 729-764 from destination `i` on: each
      destination's pin is resolved and, when it is a true value, a
      connection from the statement's output is requested (the status
      `make_connection` returns is only printed). A destination without a
      pin name is an IndexError. */
  function ConnectInputs(p: Parser, env: Env, out: Option<nat>, outPin: Option<nat>,
                         ins: seq<nat>, ports: seq<string>, i: nat): (r: Outcome<Parser>)
    requires p.Valid() && i <= |ins|
    ensures r.Done? || (r.Crash? && (r.fault == ValueError || r.fault == IndexError))
    ensures r.Done? ==> Follows(p, r.value) && r.value.stored == p.stored && r.value.scan == p.scan
    ensures r.Done? ==> FromOutput(p.log, r.value.log, out, outPin, ins, env.pins)
    ensures i < |ins| && |ports| <= i ==> r == Crash(IndexError)
    ensures i < |ins| && |ports| < |ins| ==> r.Crash?
    ensures i < |ins| && |ports| < |ins| && AllFixed(env.pins, ports, i, |ports|) ==> r == Crash(IndexError)
    ensures |ins| <= |ports| && AllFixed(env.pins, ports, i, |ins|) ==>
      r == Done(p.(log := p.log + Wires(env.pins, out, outPin, ins, ports, i)))
    decreases |ins| - i
  {
    if i == |ins| then
      assert p.log + [] == p.log;
      Done(p)
    else if |ports| <= i then Crash(IndexError)
    else
      var p1 :- ConnectOne(p, env, out, outPin, ins, ins[i], ports[i]);
      var r := ConnectInputs(p1, env, out, outPin, ins, ports, i + 1);
      if r.Done? then
        FollowsTransitive(p, p1, r.value);
        FromOutputTrans(p.log, p1.log, r.value.log, out, outPin, ins, env.pins);
        if |ins| <= |ports| && AllFixed(env.pins, ports, i, |ins|) then
          var w := Wires(env.pins, out, outPin, ins, ports, i + 1);
          assert p1.log + w == p.log + Wires(env.pins, out, outPin, ins, ports, i);
          r
        else r
      else r
  }

  /** Every pin name of `ports` from index `i` up to `j` is one of the four
      flip-flop inputs. */
  predicate AllFixed(pins: DTypePins, ports: seq<string>, i: nat, j: nat) {
    forall m :: i <= m < j && m < |ports| ==> FixedPin(pins, ports[m]).Some?
  }

  /** The connections destinations `i..` of a statement call for when each
      names a flip-flop input: one per destination whose pin id is a true
      value, from the statement's output to that pin, in order. */
  function Wires(pins: DTypePins, out: Option<nat>, outPin: Option<nat>,
                 ins: seq<nat>, ports: seq<string>, i: nat): (r: seq<Request>)
    requires i <= |ins| <= |ports|
    ensures |r| <= |ins| - i
    ensures forall m :: 0 <= m < |r| ==> FlipFlopConnection(r[m], out, outPin, ins, pins)
    decreases |ins| - i
  {
    if i == |ins| then []
    else
      var pin := FixedPin(pins, ports[i]);
      var rest := Wires(pins, out, outPin, ins, ports, i + 1);
      if Truthy(pin) then
        [MakeConnection(out, outPin, ins[i], pin.value)] + rest
      else rest
  }

  /** When no flip-flop input has the id 0, every destination from `i` on
      that names one is connected: the `j`-th request goes to the `j`-th
      such destination. */
  lemma {:induction false} WiresEveryDestination(pins: DTypePins, out: Option<nat>, outPin: Option<nat>,
                                                 ins: seq<nat>, ports: seq<string>, i: nat)
    requires i <= |ins| <= |ports| && AllFixed(pins, ports, i, |ins|)
    requires pins.clk != 0 && pins.data != 0 && pins.setPin != 0 && pins.clear != 0
    ensures var r := Wires(pins, out, outPin, ins, ports, i);
      && |r| == |ins| - i
      && forall j :: 0 <= j < |r| ==> r[j] == MakeConnection(out, outPin, ins[i + j], FixedPin(pins, ports[i + j]).value)
    decreases |ins| - i
  {
    if i < |ins| {
      WiresEveryDestination(pins, out, outPin, ins, ports, i + 1);
      var pin := FixedPin(pins, ports[i]);
      assert Truthy(pin);
      var rest := Wires(pins, out, outPin, ins, ports, i + 1);
      assert Wires(pins, out, outPin, ins, ports, i) == [MakeConnection(out, outPin, ins[i], pin.value)] + rest;
    }
  }

  /** One destination: its pin, and a connection request when the pin is a
      true value. */
  function ConnectOne(p: Parser, env: Env, out: Option<nat>, outPin: Option<nat>,
                      ins: seq<nat>, device: nat, port: string): (r: Outcome<Parser>)
    requires p.Valid() && device in ins
    ensures r.Done? || (r.Crash? && (r.fault == ValueError || r.fault == IndexError))
    ensures r.Done? ==> Follows(p, r.value) && r.value.stored == p.stored && r.value.scan == p.scan
    ensures r.Done? ==> FromOutput(p.log, r.value.log, out, outPin, ins, env.pins)
    ensures r.Done? ==> |r.value.log| <= |p.log| + 1 && |r.value.errors| <= |p.errors| + 1
    ensures r.Done? && r.value.log != p.log ==> r.value.errors == p.errors
    ensures FixedPin(env.pins, port).Some? ==>
      r == Done(if FixedPin(env.pins, port).value != 0
                then p.(log := p.log + [MakeConnection(out, outPin, device, FixedPin(env.pins, port).value)])
                else p)
    ensures r.Done? && FixedPin(env.pins, port).None? ==>
      r.value.log == p.log && |r.value.errors| == |p.errors| + 1
  {
    var (pin, p1) :- InputPin(p, env, device, port);
    if Truthy(pin) then
      Done(p1.(log := p1.log + [MakeConnection(out, outPin, device, pin.value)]))
    else Done(p1)
  }

  /** Every request `log'` adds to `log` connects the statement's output to
      a flip-flop input of one of its destinations. */
  predicate FromOutput(log: seq<Request>, log': seq<Request>, out: Option<nat>, outPin: Option<nat>,
                       ins: seq<nat>, pins: DTypePins) {
    && log <= log'
    && forall m :: |log| <= m < |log'| ==> FlipFlopConnection(log'[m], out, outPin, ins, pins)
  }

  lemma FromOutputToFlipFlop(log: seq<Request>, log': seq<Request>, out: Option<nat>,
                             outPin: Option<nat>, ins: seq<nat>, pins: DTypePins)
    requires FromOutput(log, log', out, outPin, ins, pins)
    ensures ToFlipFlopPins(log, log', pins)
  {
  }

  lemma FromOutputTrans(a: seq<Request>, b: seq<Request>, c: seq<Request>, out: Option<nat>,
                        outPin: Option<nat>, ins: seq<nat>, pins: DTypePins)
    requires FromOutput(a, b, out, outPin, ins, pins) && FromOutput(b, c, out, outPin, ins, pins)
    ensures FromOutput(a, c, out, outPin, ins, pins)
  {
    assert forall m :: |a| <= m < |b| ==> c[m] == b[m];
  }

  /** Lines 707-764: the ids of the statement's devices, its output pin, and
      the connection requests. */
  function Connect(p: Parser, env: Env, devs: seq<string>, ports: seq<string>): (r: Outcome<Parser>)
    requires p.Valid() && |devs| > 0
    ensures r.Done? || (r.Crash? && (r.fault == KeyError || r.fault == ValueError || r.fault == IndexError))
    ensures r.Done? ==> Follows(p, r.value) && r.value.stored == p.stored
    ensures r.Done? ==> ToFlipFlopPins(p.log, r.value.log, env.pins)
    ensures r.Crash? && r.fault == KeyError ==> |ports| == |devs| && ports[0] != "Q" && ports[0] != "QBAR"
    ensures |ports| < |devs| - 1 ==> r.Crash?
    ensures |ports| == |devs| - 1 && AllFixed(env.pins, ports, 0, |ports|) ==>
      var (p1, ins) := LookupNames(p, devs[1..]);
      r == Done(p1.(log := p1.log + Wires(env.pins, NameTable.Query(p.scan.names, devs[0]), None, ins, ports, 0)))
    ensures |ports| == |devs| && (ports[0] == "Q" || ports[0] == "QBAR") && AllFixed(env.pins, ports[1..], 0, |devs| - 1) ==>
      var (p1, ins) := LookupNames(p, devs[1..]);
      var outPin := if ports[0] == "Q" then env.pins.q else env.pins.qbar;
      r == Done(p1.(log := p1.log + Wires(env.pins, NameTable.Query(p.scan.names, devs[0]), Some(outPin), ins, ports[1..], 0)))
  {
    var out := NameTable.Query(p.scan.names, devs[0]);
    var (p1, ins) := LookupNames(p, devs[1..]);
    var (outPin, ports1) :- OutputPin(env.pins, |devs|, ports);
    var r := ConnectInputs(p1, env, out, outPin, ins, ports1, 0);
    if r.Done? then
      FollowsTransitive(p, p1, r.value);
      FromOutputToFlipFlop(p1.log, r.value.log, out, outPin, ins, env.pins);
      r
    else r
  }

  /** `parse_conns_line`. A first symbol that is not a known name records
      INVALID_NAME and INVALID_DEVICE and reads nothing. Without a `=` after
      the first device (and its optional output pin) the statement ends
      there, with no diagnostic. Every request it issues is a connection to
      a flip-flop pin, and the output-pin lookup never raises a KeyError. */
  function ParseConnsLine(p: Parser, env: Env, fuel: nat): (r: Outcome<Parser>)
    requires p.Valid()
    ensures r.Done? || r.Hang? || r.OutOfFuel? ||
      (r.Crash? && (r.fault == TypeError || r.fault == ValueError || r.fault == IndexError))
    ensures r.Done? ==> Follows(p, r.value) && r.value.stored == p.stored
    ensures r.Done? ==> ToFlipFlopPins(p.log, r.value.log, env.pins)
    ensures !(p.sym.name.Text? && p.sym.name.text in p.scan.names) ==>
      r == Done(p.AddError(Code.InvalidName).AddError(InvalidDevice))
  {
    var (ok, p1) := ValidateForConns(p);
    if !ok then Done(p1.AddError(InvalidDevice))
    else ConnsLineRest(p1, env, fuel)
  }

  /** A statement `A = B.P;` with a known first device `A`, a device `B`
      and P either CLK or DATA (the flip-flop inputs `check_inputs_name`
      lets through) records nothing and issues exactly one request when P's
      pin id is not 0: a connection from A's output, with no output pin, to
      pin P of B, the devices having the ids the name table gives them. */
  lemma ConnStatementConnects(p: Parser, env: Env, fuel: nat,
                              q1: Parser, q2: Parser, q3: Parser, q4: Parser, q5: Parser, q6: Parser)
    requires p.Valid() && p.sym.name.Text? && p.sym.name.text in p.scan.names && fuel > 0
    requires p.Advance() == Done(q1) && q1.At(Equal)
    requires q1.Valid() && q1.Advance() == Done(q2) && q2.At(Name)
    requires q2.Valid() && q2.Advance() == Done(q3) && q3.At(Dot)
    requires q3.Valid() && q3.Advance() == Done(q4) && (q4.sym.name == Text("CLK") || q4.sym.name == Text("DATA"))
    requires q4.Valid() && q4.Advance() == Done(q5) && q5.At(Semicolon)
    requires q5.Valid() && q5.Advance() == Done(q6)
    ensures q2.sym.name.text in q6.scan.names
    ensures var pin := FixedPin(env.pins, q4.sym.name.text).value;
      var conn := MakeConnection(NameTable.Query(q6.scan.names, p.sym.name.text), None,
                                 NameTable.Query(q6.scan.names, q2.sym.name.text).value, pin);
      ParseConnsLine(p, env, fuel) == Done(if pin != 0 then q6.(log := q6.log + [conn]) else q6)
  {
    StatementIsConnect(p, env, fuel, q1, q2, q3, q4, q5, q6);
    ConnectOneDestination(q6, env, p.sym.name.text, q2.sym.name.text, q4.sym.name.text);
  }

  /** `A = B.P;`: the statement is `Connect` on the two devices and the one
      pin name, after the `;`. */
  lemma StatementIsConnect(p: Parser, env: Env, fuel: nat,
                           q1: Parser, q2: Parser, q3: Parser, q4: Parser, q5: Parser, q6: Parser)
    requires p.Valid() && p.sym.name.Text? && p.sym.name.text in p.scan.names && fuel > 0
    requires p.Advance() == Done(q1) && q1.At(Equal)
    requires q1.Valid() && q1.Advance() == Done(q2) && q2.At(Name)
    requires q2.Valid() && q2.Advance() == Done(q3) && q3.At(Dot)
    requires q3.Valid() && q3.Advance() == Done(q4) && q4.sym.name.Text? && q4.sym.name.text in DTypePinNames
    requires q4.Valid() && q4.Advance() == Done(q5) && q5.At(Semicolon)
    requires q5.Valid() && q5.Advance() == Done(q6)
    ensures q6.Valid() && q2.sym.name.text in q6.scan.names
    ensures ParseConnsLine(p, env, fuel) ==
      Connect(q6, env, [p.sym.name.text, q2.sym.name.text], [q4.sym.name.text])
  {
    var a, b, port := p.sym.name.text, q2.sym.name.text, q4.sym.name.text;
    StatementIsLoop(p, env, fuel, q1, q2);
    OneItemLoop(q2, a, fuel, q3, q4, q5, q6);
    CollectThenConnect(q2, env, a, [], fuel, q6, [a, b], [port]);
  }

  /** When the connection loop ends, the statement's requests are those
      `Connect` makes of what it collected. */
  lemma CollectThenConnect(p: Parser, env: Env, first: string, tag: seq<string>, fuel: nat,
                           q: Parser, devs: seq<string>, ports: seq<string>)
    requires p.Valid() && (tag == [] || tag == ["Q"] || tag == ["QBAR"])
    requires ConnLoop(p, [first], tag, fuel) == Done((q, devs, ports))
    ensures |devs| > 0 && CollectAndConnect(p, env, first, tag, fuel) == Connect(q, env, devs, ports)
  {
  }

  /** A known first device followed by `=` leads straight to the
      destinations, from the symbol after the `=`, with no output pin named. */
  lemma StatementIsLoop(p: Parser, env: Env, fuel: nat, q1: Parser, q2: Parser)
    requires p.Valid() && p.sym.name.Text? && p.sym.name.text in p.scan.names
    requires p.Advance() == Done(q1) && q1.At(Equal)
    requires q1.Advance() == Done(q2)
    ensures ParseConnsLine(p, env, fuel) == CollectAndConnect(q2, env, p.sym.name.text, [], fuel)
  {
    assert ValidateForConns(p) == (true, p);
    assert OutputTag(q1) == Done((q1, []));
    assert ParseConnsLine(p, env, fuel) == ConnsLineRest(p, env, fuel);
  }

  /** `B.P;` with P a flip-flop pin name: the connection loop collects B and
      P, reads past the `;` and stops. */
  lemma OneItemLoop(p: Parser, first: string, fuel: nat, q1: Parser, q2: Parser, q3: Parser, q4: Parser)
    requires p.Valid() && p.At(Name) && fuel > 0
    requires p.Advance() == Done(q1) && q1.At(Dot)
    requires q1.Advance() == Done(q2) && q2.sym.name.Text? && q2.sym.name.text in DTypePinNames
    requires q2.Advance() == Done(q3) && q3.At(Semicolon)
    requires q3.Advance() == Done(q4)
    ensures p.sym.name.text in q4.scan.names
    ensures ConnLoop(p, [first], [], fuel) == Done((q4, [first, p.sym.name.text], [q2.sym.name.text]))
  {
    var b, port := p.sym.name.text, q2.sym.name.text;
    PinThenSemicolon(q1, [], q2, q3, q4);
    Singletons(first, port);
    Singletons(first, b);
    FollowsTransitive(p, q1, q2);
    FollowsTransitive(q2, q3, q4);
    assert b == p.scan.names[p.sym.id.value];
    ItemWithPin(p, [first], [], q1, (q4, [port], true));
    LoopStopsAfterItem(p, [first], [], fuel, q4, [first, p.sym.name.text], [q2.sym.name.text]);
  }

  /** A device followed by a dot: the item is the device and its pin part. */
  lemma ItemWithPin(p: Parser, devs: seq<string>, ports: seq<string>, q1: Parser, r: (Parser, seq<string>, bool))
    requires p.Valid() && p.sym.name.Text? && p.sym.name.text in p.scan.names
    requires p.Advance() == Done(q1) && q1.At(Dot) && PinItem(q1, ports) == Done(r)
    ensures ConnItem(p, devs, ports) == Done((r.0, devs + [p.sym.name.text], r.1, r.2))
  {
  }

  /** An item on a known device that ends with `;` ends the connection loop. */
  lemma LoopStopsAfterItem(p: Parser, devs: seq<string>, ports: seq<string>, fuel: nat,
                           q: Parser, devs': seq<string>, ports': seq<string>)
    requires p.Valid() && p.sym.name.Text? && p.sym.name.text in p.scan.names && fuel > 0
    requires !p.At(Semicolon) && !p.At(Eof)
    requires ConnItem(p, devs, ports) == Done((q, devs', ports', true))
    ensures ConnLoop(p, devs, ports, fuel) == Done((q, devs', ports'))
  {
    assert ValidateForConns(p) == (true, p);
  }

  /** `. P ;` with P a flip-flop pin name: P is collected and the `;` read past. */
  lemma PinThenSemicolon(p: Parser, ports: seq<string>, q1: Parser, q2: Parser, q3: Parser)
    requires p.Valid() && p.At(Dot)
    requires p.Advance() == Done(q1) && q1.sym.name.Text? && q1.sym.name.text in DTypePinNames
    requires q1.Advance() == Done(q2) && q2.At(Semicolon)
    requires q2.Advance() == Done(q3)
    ensures PinItem(p, ports) == Done((q3, ports + [q1.sym.name.text], true))
  {
    assert CheckInputsName(q1) == Done((true, q1));
    assert Separator(q2) == Done((q3, true));
  }

  /** `Connect` for one destination `b` whose pin is CLK or DATA and no
      output pin: one connection when the pin id is not 0. */
  lemma ConnectOneDestination(p: Parser, env: Env, a: string, b: string, port: string)
    requires p.Valid() && b in p.scan.names && (port == "CLK" || port == "DATA")
    ensures var pin := FixedPin(env.pins, port).value;
      var conn := MakeConnection(NameTable.Query(p.scan.names, a), None, NameTable.Query(p.scan.names, b).value, pin);
      Connect(p, env, [a, b], [port]) == Done(if pin != 0 then p.(log := p.log + [conn]) else p)
  {
    var out, id := NameTable.Query(p.scan.names, a), NameTable.Query(p.scan.names, b).value;
    var pin := FixedPin(env.pins, port).value;
    LookupKnown(p, b);
    assert [a, b][1..] == [b];
    assert AllFixed(env.pins, [port], 0, 1);
    var w := Wires(env.pins, out, None, [id], [port], 0);
    assert Wires(env.pins, out, None, [id], [port], 1) == [];
    assert w == if pin != 0 then [MakeConnection(out, None, id, pin)] else [];
    assert p.log + [] == p.log;
  }

  /** Looking up a name already in the table changes nothing and gives the
      id `query` gives. */
  lemma LookupKnown(p: Parser, name: string)
    requires p.Valid() && name in p.scan.names
    ensures LookupNames(p, [name]) == (p, [NameTable.Query(p.scan.names, name).value])
  {
    var t := p.scan.names;
    var id := NameTable.Query(t, name).value;
    assert [name][0] == name && [name][1..] == [];
    assert NameTable.Intern(t, name) == (t, id);
    assert NameTable.Lookup(t, []) == (t, []);
    assert [id] + [] == [id];
  }

  /** A connection statement after its validated first device. */
  function ConnsLineRest(p: Parser, env: Env, fuel: nat): (r: Outcome<Parser>)
    requires p.Valid() && p.sym.name.Text?
    ensures r.Done? || r.Hang? || r.OutOfFuel? ||
      (r.Crash? && (r.fault == TypeError || r.fault == ValueError || r.fault == IndexError))
    ensures r.Done? ==> Follows(p, r.value) && r.value.stored == p.stored
    ensures r.Done? ==> ToFlipFlopPins(p.log, r.value.log, env.pins)
  {
    var p1 :- p.Advance();
    var (p2, tag) :- OutputTag(p1);
    FollowsTransitive(p, p1, p2);
    if !p2.At(Equal) then Done(p2)
    else
      var r := Destinations(p2, env, p.sym.name.text, tag, fuel);
      if r.Done? then
        FollowsTransitive(p, p2, r.value);
        r
      else r
  }

  /** The destinations after the `=` and the requests they turn into. */
  function Destinations(p: Parser, env: Env, first: string, tag: seq<string>, fuel: nat): (r: Outcome<Parser>)
    requires p.Valid() && (tag == [] || tag == ["Q"] || tag == ["QBAR"])
    ensures r.Done? || r.Hang? || r.OutOfFuel? ||
      (r.Crash? && (r.fault == TypeError || r.fault == ValueError || r.fault == IndexError))
    ensures r.Done? ==> Follows(p, r.value) && r.value.stored == p.stored
    ensures r.Done? ==> ToFlipFlopPins(p.log, r.value.log, env.pins)
  {
    var p1 :- p.Advance();
    var r := CollectAndConnect(p1, env, first, tag, fuel);
    if r.Done? then
      FollowsTransitive(p, p1, r.value);
      r
    else r
  }

  /** The connection loop from the first destination, and the requests. */
  function CollectAndConnect(p: Parser, env: Env, first: string, tag: seq<string>, fuel: nat): (r: Outcome<Parser>)
    requires p.Valid() && (tag == [] || tag == ["Q"] || tag == ["QBAR"])
    ensures r.Done? || r.Hang? || r.OutOfFuel? ||
      (r.Crash? && (r.fault == TypeError || r.fault == ValueError || r.fault == IndexError))
    ensures r.Done? ==> Follows(p, r.value) && r.value.stored == p.stored
    ensures r.Done? ==> ToFlipFlopPins(p.log, r.value.log, env.pins)
  {
    var (p1, devs, ports) :- ConnLoop(p, [first], tag, fuel);
    assert |ports| == |devs| ==> tag != [] && ports[0] == tag[0];
    var r := Connect(p1, env, devs, ports);
    if r.Done? then
      FollowsTransitive(p, p1, r.value);
      r
    else r
  }
  /** `parse_conns`, `i` being the iterations already made: the same loop
      and guard as the devices section's. */
  function ParseConns(p: Parser, env: Env, fuel: nat, i: nat): (r: Outcome<Parser>)
    requires p.Valid() && i <= DeviceParsing.LoopBound
    ensures r.Done? || r.Hang? || r.OutOfFuel? ||
      (r.Crash? && (r.fault == TypeError || r.fault == ValueError || r.fault == IndexError))
    ensures r.Done? ==> Follows(p, r.value) && r.value.stored == p.stored
    ensures r.Done? ==> DeviceParsing.LoopEnded(p, r.value)
    ensures r.Done? ==> ToFlipFlopPins(p.log, r.value.log, env.pins)
    decreases DeviceParsing.LoopBound - i, 1
  {
    if p.At(OpenSquareBracket) then Done(p)
    else if p.At(Heading) || p.At(Eof) then Done(p.AddError(SyntaxError))
    else if i + 1 > DeviceParsing.LoopBound then Done(p.AddError(OverflowError))
    else ConnsIteration(p, env, fuel, i)
  }

  /** One iteration of `parse_conns` that reads a statement, and the rest of
      the loop. */
  function ConnsIteration(p: Parser, env: Env, fuel: nat, i: nat): (r: Outcome<Parser>)
    requires p.Valid() && i < DeviceParsing.LoopBound
    ensures r.Done? || r.Hang? || r.OutOfFuel? ||
      (r.Crash? && (r.fault == TypeError || r.fault == ValueError || r.fault == IndexError))
    ensures r.Done? ==> Follows(p, r.value) && r.value.stored == p.stored
    ensures r.Done? ==> DeviceParsing.LoopEnded(p, r.value)
    ensures r.Done? ==> ToFlipFlopPins(p.log, r.value.log, env.pins)
    decreases DeviceParsing.LoopBound - i, 0
  {
    var q :- ParseConnsLine(p, env, fuel);
    var r := ParseConns(q, env, fuel, i + 1);
    if r.Done? then
      FollowsTransitive(p, q, r.value);
      ToFlipFlopPinsTrans(p.log, q.log, r.value.log, env.pins);
      DeviceParsing.LoopEndedFrom(p, q, r.value);
      r
    else r
  }

  /** `ToFlipFlopPins` composes. */
  lemma ToFlipFlopPinsTrans(a: seq<Request>, b: seq<Request>, c: seq<Request>, pins: DTypePins)
    requires ToFlipFlopPins(a, b, pins) && ToFlipFlopPins(b, c, pins)
    ensures ToFlipFlopPins(a, c, pins)
  {
    assert forall m :: |a| <= m < |b| ==> c[m] == b[m];
  }

  /** A statement that starts with an unknown name, a number or a stray
      punctuation mark reads nothing, so the loop records INVALID_NAME and
      INVALID_DEVICE on every remaining iteration and stops only at the
      iteration guard. */
  lemma {:induction false} ConnsStall(p: Parser, env: Env, fuel: nat, i: nat)
    requires p.Valid() && i <= DeviceParsing.LoopBound
    requires !(p.sym.name.Text? && p.sym.name.text in p.scan.names)
    requires !p.At(OpenSquareBracket) && !p.At(Heading) && !p.At(Eof)
    ensures ParseConns(p, env, fuel, i) == Done(p.(errors := p.errors
      + Pairs(DiagAt(p.scan, Code.InvalidName), DiagAt(p.scan, InvalidDevice), DeviceParsing.LoopBound - i)
      + [DiagAt(p.scan, OverflowError)]))
    decreases DeviceParsing.LoopBound - i
  {
    var a, b := DiagAt(p.scan, Code.InvalidName), DiagAt(p.scan, InvalidDevice);
    if i < DeviceParsing.LoopBound {
      var q := p.AddError(Code.InvalidName).AddError(InvalidDevice);
      assert ParseConnsLine(p, env, fuel) == Done(q);
      ConnsStall(q, env, fuel, i + 1);
      assert ParseConns(p, env, fuel, i) == ConnsIteration(p, env, fuel, i) == ParseConns(q, env, fuel, i + 1);
      assert q.errors == p.errors + [a, b];
      assert [a, b] + Pairs(a, b, DeviceParsing.LoopBound - (i + 1)) == Pairs(a, b, DeviceParsing.LoopBound - i);
      assert q.errors + Pairs(a, b, DeviceParsing.LoopBound - (i + 1)) == p.errors + Pairs(a, b, DeviceParsing.LoopBound - i);
    } else {
      assert ParseConns(p, env, fuel, i) == Done(p.AddError(OverflowError));
      assert p.errors + Pairs(a, b, 0) == p.errors;
    }
  }

  /** `n` repetitions of the two diagnostics `a`, `b`. */
  function Pairs(a: Diag, b: Diag, n: nat): (r: seq<Diag>)
    ensures |r| == 2 * n
  {
    if n == 0 then [] else [a, b] + Pairs(a, b, n - 1)
  }

  /** `parse_conns_block`: the header, then the statement loop. A bad
      header records one INVALID_HEADER and no statement is read. */
  function ParseConnsBlock(p: Parser, env: Env, fuel: nat): (r: Outcome<Parser>)
    requires p.Valid()
    ensures r.Done? || r.Hang? || r.OutOfFuel? ||
      (r.Crash? && (r.fault == TypeError || r.fault == ValueError || r.fault == IndexError))
    ensures r.Done? ==> Follows(p, r.value) && r.value.stored == p.stored
    ensures !p.At(OpenSquareBracket) ==> r == Done(p.AddError(InvalidHeader))
    ensures r.Done? ==> ToFlipFlopPins(p.log, r.value.log, env.pins)
    ensures r.Done? && !DeviceParsing.HeaderAhead(p, "conns") ==> DeviceParsing.HeaderRead(p, false, r.value)
    ensures r.Done? && DeviceParsing.HeaderAhead(p, "conns") ==> DeviceParsing.LoopEnded(p, r.value)
  {
    var (ok, p1) :- DeviceParsing.Header(p, "conns");
    if ok then
      var r := ParseConns(p1, env, fuel, 0);
      if r.Done? then
        FollowsTransitive(p, p1, r.value);
        DeviceParsing.LoopEndedFrom(p, p1, r.value);
        r
      else r
    else Done(p1)
  }
}

=== FILE: device_parsing.dfy ===
/** The `[devices]` section of parse.py: section headers, device-name
    validation, device statements `name (',' name)* '=' KIND ['(' n ')'] ';'`
    and the statement loop with its 500-iteration guard. */
module DeviceParsing {

  import opened Wrappers
  import opened Scanning
  import opened ParseState

  datatype DeviceKind = GateDevice(gate: GateKind) | DType | Clock | Switch

  /** The kind a LOGIC symbol's name selects in `parse_logic_gate`. */
  function KindOf(name: SymName): (r: Option<DeviceKind>)
    ensures name.Text? && name.text in LogicList <==> r.Some?
  {
    match name
    case Num(_) => None
    case Text(w) =>
      if w == "AND" then Some(GateDevice(And))
      else if w == "NAND" then Some(GateDevice(Nand))
      else if w == "OR" then Some(GateDevice(Or))
      else if w == "NOR" then Some(GateDevice(Nor))
      else if w == "XOR" then Some(GateDevice(Xor))
      else if w == "DTYPE" then Some(DType)
      else if w == "CLOCK" then Some(Clock)
      else if w == "SWITCH" then Some(Switch)
      else None
  }

  /** The parameter values a kind accepts without an INVALID_NUMBER error. */
  predicate InRange(k: DeviceKind, n: nat) {
    match k
    case GateDevice(g) => if g == Xor then n == 2 else 1 <= n <= 16
    case Clock => n >= 1
    case Switch => n <= 1
    case DType => true
  }

  /** The parameter used on a bare `;`: two inputs for gates, output 0 for a
      switch. DTYPE takes none and CLOCK has no default. */
  function Default(k: DeviceKind): nat {
    if k.GateDevice? then 2 else 0
  }

  /** `r` asks the device registry for a device of kind `k` with parameter `n`. */
  predicate Creates(r: Request, k: DeviceKind, n: nat) {
    match k
    case GateDevice(g) => r.MakeGate? && r.gate == g && r.inputs == n
    case DType => r.MakeDType?
    case Clock => r.MakeClock? && r.period == n
    case Switch => r.MakeSwitch? && r.output == n
  }

  function MakeRequest(k: DeviceKind, id: nat, n: nat): (r: Request)
    ensures Creates(r, k, n) && !r.MakeConnection? && r.device == id
  {
    match k
    case GateDevice(g) => MakeGate(id, g, n)
    case DType => MakeDType(id)
    case Clock => MakeClock(id, n)
    case Switch => MakeSwitch(id, n)
  }

  /** The parameter a creation request carries (none for a flip-flop). */
  function Param(r: Request): nat
    requires !r.MakeConnection?
  {
    match r
    case MakeGate(_, _, n) => n
    case MakeClock(_, n) => n
    case MakeSwitch(_, n) => n
    case MakeDType(_) => 0
  }

  /** The requests `q` added to `p`'s log create the names of `batch`, in
      order, one each, all of kind `k` with parameter `n`. */
  predicate CreatesInOrder(p: Parser, q: Parser, batch: seq<string>, k: DeviceKind, n: nat) {
    && p.log <= q.log
    && |q.log| == |p.log| + |batch|
    && forall i :: 0 <= i < |batch| ==> CreatesNamed(q.log[|p.log| + i], q.scan.names, batch[i], k, n)
  }

  /** `r` creates the device whose name, in the table `names`, is `name`. */
  predicate CreatesNamed(r: Request, names: seq<string>, name: string, k: DeviceKind, n: nat) {
    && Creates(r, k, n) && !r.MakeConnection?
    && r.device < |names| && names[r.device] == name
  }

  /** The `names.lookup` and creation loop every production ends with. */
  function Create(p: Parser, k: DeviceKind, batch: seq<string>, n: nat): (q: Parser)
    requires p.Valid()
    ensures Follows(p, q)
    ensures q.errors == p.errors && q.stored == p.stored && q.sym == p.sym
    ensures CreatesInOrder(p, q, batch, k, n)
    ensures (forall i :: 0 <= i < |batch| ==> batch[i] in p.scan.names) ==> q.scan == p.scan
  {
    var (p1, ids) := LookupNames(p, batch);
    p1.(log := p.log + seq(|ids|, i requires 0 <= i < |ids| => MakeRequest(k, ids[i], n)))
  }

  /** `validate_device_name`: True for a NAME in neither the statement's
      batch nor the stored names, False (after NAME_DEFINED) for a repeated
      name, None (after INVALID_NAME) for any other symbol. Nothing is read. */
  function ValidateDeviceName(p: Parser, batch: seq<string>): (r: (Option<bool>, Parser))
    requires p.Valid()
    ensures Follows(p, r.1)
    ensures r.1.scan == p.scan && r.1.sym == p.sym && r.1.stored == p.stored && r.1.log == p.log
    ensures r.0 == Some(true) <==>
      p.sym.kind == Some(Name) && p.sym.name.text !in batch && p.sym.name.text !in p.stored
    ensures r.0 == Some(false) <==>
      p.sym.kind == Some(Name) && (p.sym.name.text in batch || p.sym.name.text in p.stored)
    ensures r.0 == None <==> p.sym.kind != Some(Name)
    ensures r.0 == Some(true) ==> r.1.errors == p.errors
    ensures r.0 == Some(false) ==> r.1.errors == p.errors + [DiagAt(p.scan, NameDefined)]
    ensures r.0 == None ==> r.1.errors == p.errors + [DiagAt(p.scan, Code.InvalidName)]
  {
    if p.sym.kind == Some(Name) then
      if p.sym.name.text !in batch && p.sym.name.text !in p.stored then (Some(true), p)
      else (Some(false), p.AddError(NameDefined))
    else
      (None, p.AddError(Code.InvalidName))
  }

  /** How one pass of the comma loop ends. */
  datatype Pass = Continue | EqualSeen | Rejected

  /** One pass of the comma loop of `parse_device_line` (lines 150-162), on a
      comma: read the next symbol; a `=` ends the loop; a name that
      validates is appended to the batch and to the stored names and read
      past; any other symbol ends the loop with `devices_are_valid` false. */
  function CommaName(p: Parser, batch: seq<string>): (r: Outcome<(Parser, seq<string>, Pass)>)
    requires p.Valid() && p.At(Comma)
    ensures r.Done? || r.Hang?
    ensures r.Done? ==> Follows(p, r.value.0) && r.value.0.log == p.log
    ensures r.Done? && r.value.2 == Continue ==>
      && r.value.0.Remaining() < p.Remaining()
      && r.value.0.errors == p.errors
      && |r.value.1| == |batch| + 1 && r.value.1[..|batch|] == batch
      && r.value.1[|batch|] !in batch && r.value.1[|batch|] !in p.stored
      && r.value.0.stored == p.stored + [r.value.1[|batch|]]
    ensures r.Done? && r.value.2 == EqualSeen ==>
      r.value.0.errors == p.errors && r.value.0.stored == p.stored && r.value.1 == batch
    ensures r.Done? && r.value.2 == Rejected ==>
      |r.value.0.errors| == |p.errors| + 1 && r.value.0.stored == p.stored && r.value.1 == batch
      && r.value.0.errors[|p.errors|].code in {NameDefined, Code.InvalidName}
    ensures r.Done? ==> p.Advance().Done?
    ensures r.Done? ==> (r.value.2 == EqualSeen <==> p.Advance().value.At(Equal))
    ensures r.Done? ==> (r.value.2 == Continue <==> NewName(p.Advance().value, batch))
  {
    var p1 :- p.Advance();
    var r :- AfterComma(p1, batch);
    FollowsTransitive(p, p1, r.0);
    Done(r)
  }

  /** The symbol after a comma: `=`, or a name to validate and store. */
  function AfterComma(p: Parser, batch: seq<string>): (r: Outcome<(Parser, seq<string>, Pass)>)
    requires p.Valid()
    ensures r.Done? || r.Hang?
    ensures r.Done? ==> Follows(p, r.value.0) && r.value.0.log == p.log
    ensures r.Done? && r.value.2 == Continue ==>
      && r.value.0.Remaining() <= p.Remaining() && p.At(Name)
      && r.value.0.errors == p.errors
      && |r.value.1| == |batch| + 1 && r.value.1[..|batch|] == batch
      && r.value.1[|batch|] !in batch && r.value.1[|batch|] !in p.stored
      && r.value.0.stored == p.stored + [r.value.1[|batch|]]
    ensures r.Done? && r.value.2 == EqualSeen ==>
      r.value.0.errors == p.errors && r.value.0.stored == p.stored && r.value.1 == batch
    ensures r.Done? && r.value.2 == Rejected ==>
      |r.value.0.errors| == |p.errors| + 1 && r.value.0.stored == p.stored && r.value.1 == batch
      && r.value.0.errors[|p.errors|].code in {NameDefined, Code.InvalidName}
    ensures p.At(Equal) ==> r == Done((p, batch, EqualSeen))
    ensures r.Done? ==> (r.value.2 == EqualSeen <==> p.At(Equal))
    ensures r.Done? ==> (r.value.2 == Continue <==> NewName(p, batch))
    ensures r.Done? && r.value.2 == Continue ==> r.value.1 == batch + [p.sym.name.text]
  {
    if p.At(Equal) then Done((p, batch, EqualSeen))
    else
      var (v, p1) := ValidateDeviceName(p, batch);
      if v == Some(true) then
        var name := p1.sym.name.text;
        var p1' := p1.(stored := p1.stored + [name]);
        var p2 :- p1'.Advance();
        FollowsTransitive(p, p1', p2);
        Done((p2, batch + [name], Continue))
      else
        Done((p1, batch, Rejected))
  }

  /** `p` is on a NAME that is neither in the statement's batch nor stored. */
  predicate NewName(p: Parser, batch: seq<string>) {
    p.At(Name) && p.sym.name.Text? && p.sym.name.text !in batch && p.sym.name.text !in p.stored
  }

  /** The comma loop of `parse_device_line` (lines 149-162): returns the
      state, the batch and `devices_are_valid`. Every name it accepts is
      appended to the batch and to the stored names. It ends because every
      pass reads a comma, and a comma consumes a character. */
  function NameList(p: Parser, batch: seq<string>): (r: Outcome<(Parser, seq<string>, bool)>)
    requires p.Valid()
    ensures r.Done? || r.Hang?
    ensures r.Done? ==> Follows(p, r.value.0) && r.value.0.log == p.log
    ensures r.Done? ==> StoredBatch(p.stored, r.value.0.stored, batch, r.value.1)
    ensures r.Done? && r.value.2 ==> r.value.0.errors == p.errors
    ensures r.Done? && !r.value.2 ==> |r.value.0.errors| == |p.errors| + 1
    ensures r.Done? && !r.value.2 ==> r.value.0.errors[|p.errors|].code in {NameDefined, Code.InvalidName}
    ensures r.Done? && r.value.2 ==> !r.value.0.At(Comma)
    ensures !p.At(Comma) ==> r == Done((p, batch, true))
    decreases p.Remaining()
  {
    if !p.At(Comma) then Done((p, batch, true))
    else
      var (p1, batch1, pass) :- CommaName(p, batch);
      if pass == EqualSeen then Done((p1, batch1, true))
      else if pass == Rejected then Done((p1, batch1, false))
      else
        var r := NameList(p1, batch1);
        if r.Done? then
          FollowsTransitive(p, p1, r.value.0);
          NameListStep(p.stored, p1.stored, batch, batch1, r.value.0.stored, r.value.1);
          r
        else r
  }

  /** The comma loop grew batch `batch` to `out`: the names it added were
      stored, in order, and are distinct from each other, from the names
      before them and from the names stored before. */
  predicate StoredBatch(stored: seq<string>, stored': seq<string>, batch: seq<string>, out: seq<string>) {
    && batch <= out
    && stored' == stored + out[|batch|..]
    && (forall i, j :: 0 <= i < j < |out| && |batch| <= j ==> out[i] != out[j])
    && (forall j :: |batch| <= j < |out| ==> out[j] !in stored)
  }

  /** The bookkeeping of one more pass of the comma loop. */
  lemma NameListStep(stored: seq<string>, stored1: seq<string>, batch: seq<string>, batch1: seq<string>,
                     stored': seq<string>, out: seq<string>)
    requires |batch1| == |batch| + 1 && batch1[..|batch|] == batch
    requires batch1[|batch|] !in batch && batch1[|batch|] !in stored
    requires stored1 == stored + [batch1[|batch|]]
    requires StoredBatch(stored1, stored', batch1, out)
    ensures StoredBatch(stored, stored', batch, out)
  {
    assert out[|batch|..] == [batch1[|batch|]] + out[|batch1|..];
    forall i, j | 0 <= i < j < |out| && |batch| <= j
      ensures out[i] != out[j]
    {
      if j == |batch| {
        assert out[j] == batch1[|batch|] && out[i] == batch[i];
      } else if i == |batch| {
        assert out[i] == batch1[|batch|] && batch1[|batch|] in stored1;
      }
    }
  }

  /** A production that ended with a SYNTAX_ERROR: nothing was created, and
      the only diagnostics it recorded are that one SYNTAX_ERROR, after an
      INVALID_NUMBER when the number before it was out of range. */
  predicate SyntaxRejected(p: Parser, q: Parser) {
    && q.log == p.log
    && |p.errors| <= |q.errors|
    && (|| NewCodes(q.errors, |p.errors|) == [SyntaxError]
        || NewCodes(q.errors, |p.errors|) == [Code.InvalidNumber, SyntaxError])
  }

  /** A production that created the batch with some parameter `n`,
      recording INVALID_NUMBER exactly when `n` is out of range for `k`. */
  ghost predicate Built(p: Parser, q: Parser, batch: seq<string>, k: DeviceKind) {
    exists n :: BuiltWith(p, q, batch, k, n)
  }

  /** The batch was created with parameter `n`, on a `;`, and INVALID_NUMBER
      was recorded exactly when `n` is out of range for `k`. */
  predicate BuiltWith(p: Parser, q: Parser, batch: seq<string>, k: DeviceKind, n: nat) {
    && |p.errors| <= |q.errors|
    && q.At(Semicolon)
    && CreatesInOrder(p, q, batch, k, n)
    && NewCodes(q.errors, |p.errors|) == (if InRange(k, n) then [] else [Code.InvalidNumber])
  }

  /** The `'(' NUMBER ')' ';'` part shared by the gate, clock and switch
      productions: an out-of-range number records INVALID_NUMBER and still
      creates the devices when `)` and `;` follow; any other deviation
      records one SYNTAX_ERROR and creates nothing. */
  function ParenParam(p: Parser, k: DeviceKind, batch: seq<string>): (r: Outcome<Parser>)
    requires p.Valid()
    ensures r.Done? || r.Hang?
    ensures r.Done? ==> Follows(p, r.value) && r.value.stored == p.stored
    ensures r.Done? ==> Built(p, r.value, batch, k) || SyntaxRejected(p, r.value)
    ensures !p.At(OpenBracket) ==> r == Done(p.AddError(SyntaxError))
    ensures ParamAhead(p) ==> r.Done? && BuiltWith(p, r.value, batch, k, NextNumber(p))
    ensures r.Done? && !ParamAhead(p) ==> SyntaxRejected(p, r.value)
  {
    if !p.At(OpenBracket) then Done(p.AddError(SyntaxError))
    else
      var p1 :- p.Advance();
      var q :- ParamNumber(p1, k, batch);
      FollowsTransitive(p, p1, q);
      BuiltOrRejectedFrom(p, p1, q, batch, k);
      if ParamAhead(p) then
        CreatesInOrderFrom(p, p1, q, batch, k, NextNumber(p));
        Done(q)
      else
        Done(q)
  }

  /** A `'(' NUMBER ')' ';'` lies ahead: `p` is on the `(` and the next
      three symbols are the number, `)` and `;`. */
  predicate ParamAhead(p: Parser)
    requires p.Valid()
  {
    p.At(OpenBracket) && NextKinds(p, [Number, CloseBracket, Semicolon])
  }

  /** The value of the NUMBER symbol after `p`. */
  function NextNumber(p: Parser): nat
    requires p.Valid() && p.Advance().Done? && p.Advance().value.At(Number)
  {
    p.Advance().value.sym.name.value
  }

  /** The symbol after `(`: anything but a number records SYNTAX_ERROR. */
  function ParamNumber(p: Parser, k: DeviceKind, batch: seq<string>): (r: Outcome<Parser>)
    requires p.Valid()
    ensures r.Done? || r.Hang?
    ensures r.Done? ==> Follows(p, r.value) && r.value.stored == p.stored
    ensures r.Done? ==> Built(p, r.value, batch, k) || SyntaxRejected(p, r.value)
    ensures !p.At(Number) ==> r == Done(p.AddError(SyntaxError))
    ensures p.At(Number) && NextKinds(p, [CloseBracket, Semicolon]) ==>
      r.Done? && BuiltWith(p, r.value, batch, k, p.sym.name.value)
    ensures r.Done? && !(p.At(Number) && NextKinds(p, [CloseBracket, Semicolon])) ==> SyntaxRejected(p, r.value)
  {
    if !p.At(Number) then Done(p.AddError(SyntaxError))
    else
      var r := NumberParam(p, k, batch);
      assert r.Done? && !SyntaxRejected(p, r.value) ==> BuiltWith(p, r.value, batch, k, p.sym.name.value);
      r
  }

  /** The number of a `'(' NUMBER ')' ';'` part, checked against the
      kind's range, and what follows it. */
  function NumberParam(p: Parser, k: DeviceKind, batch: seq<string>): (r: Outcome<Parser>)
    requires p.Valid() && p.At(Number)
    ensures r.Done? || r.Hang?
    ensures r.Done? ==> Follows(p, r.value) && r.value.stored == p.stored
    ensures r.Done? ==> BuiltWith(p, r.value, batch, k, p.sym.name.value) || SyntaxRejected(p, r.value)
    ensures NextKinds(p, [CloseBracket, Semicolon]) ==>
      r.Done? && BuiltWith(p, r.value, batch, k, p.sym.name.value)
    ensures r.Done? && !NextKinds(p, [CloseBracket, Semicolon]) ==> SyntaxRejected(p, r.value)
  {
    var n := p.sym.name.value;
    var p1 := if InRange(k, n) then p else p.AddError(Code.InvalidNumber);
    assert NewCodes(p1.errors, |p.errors|) == (if InRange(k, n) then [] else [Code.InvalidNumber]);
    NextKindsScan(p, p1, [CloseBracket, Semicolon]);
    var r := CloseParam(p1, k, batch, n);
    if r.Done? then
      FollowsTransitive(p, p1, r.value);
      BuiltFrom(p, p1, r.value, batch, k, n);
      r
    else r
  }

  /** `Built` and `SyntaxRejected` only look at the log and diagnostics of
      their start state. */
  lemma BuiltOrRejectedFrom(p: Parser, p1: Parser, q: Parser, batch: seq<string>, k: DeviceKind)
    requires p1.log == p.log && p1.errors == p.errors
    requires Built(p1, q, batch, k) || SyntaxRejected(p1, q)
    ensures Built(p, q, batch, k) || SyntaxRejected(p, q)
  {
    if Built(p1, q, batch, k) {
      var n :| BuiltWith(p1, q, batch, k, n);
      CreatesInOrderFrom(p, p1, q, batch, k, n);
      assert BuiltWith(p, q, batch, k, n);
    }
  }

  /** A range check followed by a finished production is built or rejected:
      built exactly when the production created the batch, rejected when it
      recorded its SYNTAX_ERROR. */
  lemma BuiltFrom(p: Parser, p2: Parser, q: Parser, batch: seq<string>, k: DeviceKind, n: nat)
    requires p2.log == p.log && p.errors <= p2.errors
    requires NewCodes(p2.errors, |p.errors|) == (if InRange(k, n) then [] else [Code.InvalidNumber])
    requires Finished(p2, q, batch, k, n)
    ensures BuiltWith(p, q, batch, k, n) || SyntaxRejected(p, q)
    ensures CreatesInOrder(p2, q, batch, k, n) && q.errors == p2.errors && q.At(Semicolon) ==>
      BuiltWith(p, q, batch, k, n)
    ensures OneSyntaxError(p2, q) ==> SyntaxRejected(p, q)
  {
    if CreatesInOrder(p2, q, batch, k, n) && q.errors == p2.errors && q.At(Semicolon) {
      CreatesInOrderFrom(p, p2, q, batch, k, n);
    }
  }

  /** Exactly one diagnostic, a SYNTAX_ERROR, and nothing created. */
  predicate OneSyntaxError(p: Parser, q: Parser) {
    && q.log == p.log
    && |q.errors| == |p.errors| + 1 && p.errors <= q.errors
    && q.errors[|p.errors|].code == SyntaxError
  }

  /** The end of a production: either the batch was created with
      parameter `n` on a `;` and no diagnostic, or one SYNTAX_ERROR. */
  predicate Finished(p: Parser, q: Parser, batch: seq<string>, k: DeviceKind, n: nat) {
    || (CreatesInOrder(p, q, batch, k, n) && q.errors == p.errors && q.At(Semicolon))
    || OneSyntaxError(p, q)
  }

  /** `Finished` only looks at the log and diagnostics of its start state. */
  lemma FinishedFrom(p: Parser, p1: Parser, q: Parser, batch: seq<string>, k: DeviceKind, n: nat)
    requires p1.log == p.log && p1.errors == p.errors
    requires Finished(p1, q, batch, k, n)
    ensures Finished(p, q, batch, k, n)
  {
    if CreatesInOrder(p1, q, batch, k, n) {
      CreatesInOrderFrom(p, p1, q, batch, k, n);
    }
  }

  /** `CreatesInOrder` only looks at the log of its start state. */
  lemma CreatesInOrderFrom(p: Parser, p1: Parser, q: Parser, batch: seq<string>, k: DeviceKind, n: nat)
    requires p1.log == p.log && CreatesInOrder(p1, q, batch, k, n)
    ensures CreatesInOrder(p, q, batch, k, n)
  {
    forall i | 0 <= i < |batch|
      ensures CreatesNamed(q.log[|p.log| + i], q.scan.names, batch[i], k, n)
    {
      assert CreatesNamed(q.log[|p1.log| + i], q.scan.names, batch[i], k, n);
    }
  }

  /** The `')' ';'` after the number, on the number symbol itself. */
  function CloseParam(p: Parser, k: DeviceKind, batch: seq<string>, n: nat): (r: Outcome<Parser>)
    requires p.Valid()
    ensures r.Done? || r.Hang?
    ensures r.Done? ==> Follows(p, r.value) && r.value.stored == p.stored
    ensures r.Done? ==> Finished(p, r.value, batch, k, n)
    ensures NextKinds(p, [CloseBracket, Semicolon]) ==>
      r.Done? && CreatesInOrder(p, r.value, batch, k, n) && r.value.errors == p.errors && r.value.At(Semicolon)
    ensures r.Done? && !NextKinds(p, [CloseBracket, Semicolon]) ==> OneSyntaxError(p, r.value)
  {
    var p1 :- p.Advance();
    assert [CloseBracket, Semicolon][1..] == [Semicolon];
    if !p1.At(CloseBracket) then
      FollowsTransitive(p, p1, p1.AddError(SyntaxError));
      Done(p1.AddError(SyntaxError))
    else
      var r := Terminator(p1, k, batch, n);
      if r.Done? then
        FollowsTransitive(p, p1, r.value);
        FinishedFrom(p, p1, r.value, batch, k, n);
        r
      else r
  }

  /** The `';'` that completes a production: the devices are created on it. */
  function Terminator(p: Parser, k: DeviceKind, batch: seq<string>, n: nat): (r: Outcome<Parser>)
    requires p.Valid()
    ensures r.Done? || r.Hang?
    ensures r.Done? ==> Follows(p, r.value) && r.value.stored == p.stored
    ensures r.Done? ==> Finished(p, r.value, batch, k, n)
    ensures NextKinds(p, [Semicolon]) ==>
      r.Done? && CreatesInOrder(p, r.value, batch, k, n) && r.value.errors == p.errors && r.value.At(Semicolon)
    ensures r.Done? && !NextKinds(p, [Semicolon]) ==> OneSyntaxError(p, r.value)
  {
    var p1 :- p.Advance();
    assert NextKinds(p, [Semicolon]) <==> p1.At(Semicolon);
    if !p1.At(Semicolon) then
      FollowsTransitive(p, p1, p1.AddError(SyntaxError));
      Done(p1.AddError(SyntaxError))
    else
      FollowsTransitive(p, p1, Create(p1, k, batch, n));
      Done(Create(p1, k, batch, n))
  }

  /** `parse_logic_gate`: the eight per-kind productions. AND, NAND, OR, NOR,
      XOR and SWITCH accept a bare `;` (with their default) or a
      parenthesised number; CLOCK needs the number; DTYPE accepts only `;`.
      Each either creates the whole batch or records a SYNTAX_ERROR. */
  function ParseLogicGate(p: Parser, gate: SymName, batch: seq<string>): (r: Outcome<Parser>)
    requires p.Valid()
    ensures r.Done? || r.Hang?
    ensures r.Done? ==> Follows(p, r.value) && r.value.stored == p.stored
    ensures KindOf(gate).None? ==> r == Done(p)
    ensures r.Done? && KindOf(gate).Some? ==>
      Built(p, r.value, batch, KindOf(gate).value) || SyntaxRejected(p, r.value)
    ensures KindOf(gate).Some? && KindOf(gate).value != Clock && p.At(Semicolon) ==>
      r.Done? && r.value.errors == p.errors && r.value.stored == p.stored
      && CreatesInOrder(p, r.value, batch, KindOf(gate).value, Default(KindOf(gate).value))
    ensures KindOf(gate) == Some(DType) && !p.At(Semicolon) ==> r == Done(p.AddError(SyntaxError))
    ensures KindOf(gate) == Some(Clock) && !p.At(OpenBracket) ==> r == Done(p.AddError(SyntaxError))
    ensures KindOf(gate).Some? && KindOf(gate).value != DType && ParamAhead(p) ==>
      r.Done? && BuiltWith(p, r.value, batch, KindOf(gate).value, NextNumber(p))
    ensures r.Done? && KindOf(gate).Some? && !GateAhead(p, KindOf(gate).value) ==> SyntaxRejected(p, r.value)
  {
    match KindOf(gate)
    case None => Done(p)
    case Some(k) =>
      if k == DType then
        if p.At(Semicolon) then
          assert NewCodes(p.errors, |p.errors|) == [];
          assert BuiltWith(p, Create(p, k, batch, 0), batch, k, 0);
          Done(Create(p, k, batch, 0))
        else Done(p.AddError(SyntaxError))
      else if k != Clock && p.At(Semicolon) then
        assert InRange(k, Default(k)) && NewCodes(p.errors, |p.errors|) == [];
        assert BuiltWith(p, Create(p, k, batch, Default(k)), batch, k, Default(k));
        Done(Create(p, k, batch, Default(k)))
      else
        ParenParam(p, k, batch)
  }

  /** What production `k` accepts from `p` on: a bare `;` (all kinds but
      CLOCK) or `'(' NUMBER ')' ';'` (all kinds but DTYPE). */
  predicate GateAhead(p: Parser, k: DeviceKind)
    requires p.Valid()
  {
    || (k != Clock && p.At(Semicolon))
    || (k != DType && ParamAhead(p))
  }

  /** `parse_device_line`: a statement `name (',' name)* '=' KIND ...`.
      A first symbol that is not a new name records one diagnostic and reads
      nothing. Only the names after the first are added to the stored names,
      so the first name of a statement can be defined again later. When the
      statement creates devices, it creates exactly its names, in order: the
      first name followed by the newly stored ones. */
  function ParseDeviceLine(p: Parser): (r: Outcome<Parser>)
    requires p.Valid()
    ensures r.Done? || r.Hang?
    ensures r.Done? ==> Follows(p, r.value)
    ensures !p.At(Name) ==> r == Done(p.AddError(Code.InvalidName))
    ensures p.At(Name) && p.sym.name.text in p.stored ==> r == Done(p.AddError(NameDefined))
    ensures r.Done? && p.At(Name) ==> p.sym.name.text !in r.value.stored[|p.stored|..]
    ensures r.Done? && r.value.log != p.log ==>
      exists k, n :: CreatesInOrder(p, r.value, [p.sym.name.text] + r.value.stored[|p.stored|..], k, n)
    ensures r.Done? ==> OnlyCreations(p.log, r.value.log)
    ensures r.Done? && r.value.errors == p.errors ==>
      p.At(Name) && CleanlyCreates(p, r.value, [p.sym.name.text] + r.value.stored[|p.stored|..])
  {
    var (v, p1) := ValidateDeviceName(p, []);
    if v != Some(true) then Done(p1)
    else
      var r := AfterFirstName(p1, p1.sym.name.text);
      if r.Done? && r.value.log != p.log then
        var k, n :| CreatesInOrder(p1, r.value, [p1.sym.name.text] + r.value.stored[|p1.stored|..], k, n);
        CreatesOnly(p1, r.value, [p1.sym.name.text] + r.value.stored[|p1.stored|..], k, n);
        r
      else r
  }

  /** The requests `q` added to `p`'s log create the names of `batch`, in
      order, all of one kind, with a parameter in that kind's range. */
  ghost predicate CleanlyCreates(p: Parser, q: Parser, batch: seq<string>) {
    exists k, n :: InRange(k, n) && CreatesInOrder(p, q, batch, k, n)
  }

  /** Every request `log'` adds to `log` creates a device. */
  predicate OnlyCreations(log: seq<Request>, log': seq<Request>) {
    log <= log' && forall m :: |log| <= m < |log'| ==> !log'[m].MakeConnection?
  }

  lemma CreatesOnly(p: Parser, q: Parser, batch: seq<string>, k: DeviceKind, n: nat)
    requires CreatesInOrder(p, q, batch, k, n)
    ensures OnlyCreations(p.log, q.log)
  {
    forall m | |p.log| <= m < |q.log|
      ensures !q.log[m].MakeConnection?
    {
      assert CreatesNamed(q.log[|p.log| + (m - |p.log|)], q.scan.names, batch[m - |p.log|], k, n);
    }
  }

  /** `OnlyCreations` composes. */
  lemma OnlyCreationsTrans(a: seq<Request>, b: seq<Request>, c: seq<Request>)
    requires OnlyCreations(a, b) && OnlyCreations(b, c)
    ensures OnlyCreations(a, c)
  {
    assert forall m :: |a| <= m < |b| ==> c[m] == b[m];
  }

  /** A device statement after its validated first name `first`. */
  function AfterFirstName(p: Parser, first: string): (r: Outcome<Parser>)
    requires p.Valid()
    ensures r.Done? || r.Hang?
    ensures r.Done? ==> Follows(p, r.value)
    ensures r.Done? ==> first !in r.value.stored[|p.stored|..]
    ensures r.Done? && r.value.log != p.log ==>
      exists k, n :: CreatesInOrder(p, r.value, [first] + r.value.stored[|p.stored|..], k, n)
    ensures r.Done? && r.value.errors == p.errors ==>
      CleanlyCreates(p, r.value, [first] + r.value.stored[|p.stored|..])
  {
    var p1 :- p.Advance();
    var r := NamesAndRest(p1, first);
    if r.Done? then
      FollowsTransitive(p, p1, r.value);
      var batch := [first] + r.value.stored[|p1.stored|..];
      if r.value.log != p.log then
        var k, n :| CreatesInOrder(p1, r.value, batch, k, n);
        CreatesInOrderFrom(p, p1, r.value, batch, k, n);
        CleanFrom(p, p1, r.value, batch);
        r
      else
        CleanFrom(p, p1, r.value, batch);
        r
    else r
  }

  /** `CleanlyCreates` only looks at the log of its start state. */
  lemma CleanFrom(p: Parser, p1: Parser, q: Parser, batch: seq<string>)
    requires p1.log == p.log
    ensures CleanlyCreates(p1, q, batch) ==> CleanlyCreates(p, q, batch)
  {
    if CleanlyCreates(p1, q, batch) {
      var k, n :| InRange(k, n) && CreatesInOrder(p1, q, batch, k, n);
      CreatesInOrderFrom(p, p1, q, batch, k, n);
    }
  }

  /** The comma loop and the rest of a statement, on the symbol after its
      first name. */
  function NamesAndRest(p: Parser, first: string): (r: Outcome<Parser>)
    requires p.Valid()
    ensures r.Done? || r.Hang?
    ensures r.Done? ==> Follows(p, r.value)
    ensures r.Done? ==> first !in r.value.stored[|p.stored|..]
    ensures r.Done? && r.value.log != p.log ==>
      exists k, n :: CreatesInOrder(p, r.value, [first] + r.value.stored[|p.stored|..], k, n)
    ensures r.Done? && r.value.errors == p.errors ==>
      CleanlyCreates(p, r.value, [first] + r.value.stored[|p.stored|..])
  {
    var (p1, batch, valid) :- NameList(p, [first]);
    FirstNameApart(p.stored, p1.stored, batch, first);
    if !valid then Done(p1)
    else
      var r := DeviceLineRest(p1, batch);
      if r.Done? then
        FollowsTransitive(p, p1, r.value);
        CleanFrom(p, p1, r.value, batch);
        if r.value.log != p.log then
          var k, n :| CreatesInOrder(p1, r.value, batch, k, n);
          CreatesInOrderFrom(p, p1, r.value, batch, k, n);
          r
        else r
      else r
  }

  /** The comma loop's batch is the first name followed by the names it
      stored, and none of those is the first name. */
  lemma FirstNameApart(stored: seq<string>, stored': seq<string>, batch: seq<string>, first: string)
    requires StoredBatch(stored, stored', [first], batch)
    ensures batch == [first] + stored'[|stored|..]
    ensures first !in stored'[|stored|..]
  {
    assert stored'[|stored|..] == batch[1..];
    assert batch == [first] + batch[1..];
    forall j | 0 <= j < |batch| - 1
      ensures batch[1..][j] != first
    {
      assert batch[1..][j] == batch[j + 1] && batch[0] == first;
    }
  }

  /** The rest of a device statement after its names:
      `'=' KIND ...` and the `advance` past its last symbol. */
  function DeviceLineRest(p: Parser, batch: seq<string>): (r: Outcome<Parser>)
    requires p.Valid()
    ensures r.Done? || r.Hang?
    ensures r.Done? ==> Follows(p, r.value) && r.value.stored == p.stored
    ensures !p.At(Equal) ==> r == Done(p.AddError(SyntaxError))
    ensures r.Done? && r.value.log != p.log ==> exists k, n :: CreatesInOrder(p, r.value, batch, k, n)
    ensures r.Done? && r.value.errors == p.errors ==> p.At(Equal) && CleanlyCreates(p, r.value, batch)
  {
    if !p.At(Equal) then
      Done(p.AddError(SyntaxError))
    else
      var p1 :- p.Advance();
      if !p1.At(Logic) then
        FollowsTransitive(p, p1, p1.AddError(InvalidLogicGate));
        Done(p1.AddError(InvalidLogicGate))
      else
        var p2 :- p1.Advance();
        FollowsTransitive(p, p1, p2);
        var r := GateAndAdvance(p2, p1.sym.name, batch);
        if r.Done? then
          FollowsTransitive(p, p2, r.value);
          if r.value.errors == p.errors then
            var k := KindOf(p1.sym.name).value;
            var n :| InRange(k, n) && CreatesInOrder(p2, r.value, batch, k, n);
            CreatesInOrderFrom(p, p2, r.value, batch, k, n);
            r
          else if r.value.log != p.log then
            var n :| CreatesInOrder(p2, r.value, batch, KindOf(p1.sym.name).value, n);
            CreatesInOrderFrom(p, p2, r.value, batch, KindOf(p1.sym.name).value, n);
            r
          else r
        else r
  }

  /** `parse_logic_gate` followed by the `advance` of line 172. */
  function GateAndAdvance(p: Parser, gate: SymName, batch: seq<string>): (r: Outcome<Parser>)
    requires p.Valid()
    ensures r.Done? || r.Hang?
    ensures r.Done? ==> Follows(p, r.value) && r.value.stored == p.stored
    ensures r.Done? && r.value.log != p.log ==>
      KindOf(gate).Some? && exists n :: CreatesInOrder(p, r.value, batch, KindOf(gate).value, n)
    ensures r.Done? && KindOf(gate).Some? && r.value.errors == p.errors ==>
      exists n :: InRange(KindOf(gate).value, n) && CreatesInOrder(p, r.value, batch, KindOf(gate).value, n)
  {
    var p1 :- ParseLogicGate(p, gate, batch);
    var p2 :- p1.Advance();
    FollowsTransitive(p, p1, p2);
    if KindOf(gate).Some? && !SyntaxRejected(p, p1) then
      var n :| BuiltWith(p, p1, batch, KindOf(gate).value, n);
      CreatesInOrderLater(p, p1, p2, batch, KindOf(gate).value, n);
      Done(p2)
    else Done(p2)
  }

  /** A statement `A = K ;` with a new name `A` and a kind other than CLOCK
      creates `A` with the kind's default and records nothing. `A` is not
      added to the stored names, so a later `A = K ;` creates it again. */
  lemma GateStatementCreates(p: Parser, q1: Parser, q2: Parser, q3: Parser, q4: Parser)
    requires p.Valid() && p.At(Name) && p.sym.name.text !in p.stored
    requires p.Advance() == Done(q1) && q1.At(Equal)
    requires q1.Advance() == Done(q2) && q2.At(Logic) && KindOf(q2.sym.name) != Some(Clock)
    requires q2.Advance() == Done(q3) && q3.At(Semicolon)
    requires q3.Advance() == Done(q4)
    ensures ParseDeviceLine(p).Done?
    ensures var r := ParseDeviceLine(p).value;
      var k := KindOf(q2.sym.name).value;
      && r.errors == p.errors && r.stored == p.stored
      && CreatesInOrder(p, r, [p.sym.name.text], k, Default(k))
  {
    var a := p.sym.name.text;
    StatementIsGate(p, q1, q2, q3);
    FirstInterned(p, q3);
    GateOnSemicolon(q3, q2.sym.name, [a], q4);
    var k := KindOf(q2.sym.name).value;
    CreatesInOrderFrom(p, q3, GateAndAdvance(q3, q2.sym.name, [a]).value, [a], k, Default(k));
  }

  /** `A = K` with a new name `A`: the statement is K's production after
      the `=` and the device-kind word have been read. */
  lemma StatementIsGate(p: Parser, q1: Parser, q2: Parser, q3: Parser)
    requires p.Valid() && p.At(Name) && p.sym.name.text !in p.stored
    requires p.Advance() == Done(q1) && q1.At(Equal)
    requires q1.Valid() && q1.Advance() == Done(q2) && q2.At(Logic)
    requires q2.Valid() && q2.Advance() == Done(q3)
    ensures q3.log == p.log && q3.errors == p.errors && q3.stored == p.stored && p.scan.names <= q3.scan.names
    ensures ParseDeviceLine(p) == GateAndAdvance(q3, q2.sym.name, [p.sym.name.text])
  {
    SingleName(p, q1);
    RestIsGate(q1, [p.sym.name.text], q2, q3);
  }

  /** A NAME symbol's text stays in the name table of any later state. */
  lemma FirstInterned(p: Parser, q: Parser)
    requires p.Valid() && p.At(Name) && p.scan.names <= q.scan.names
    ensures forall i :: 0 <= i < |[p.sym.name.text]| ==> [p.sym.name.text][i] in q.scan.names
  {
    assert p.sym.name.text == p.scan.names[p.sym.id.value];
  }

  /** A statement `A, B = K ;` with new, distinct names `A` and `B` and a
      kind other than CLOCK creates `A` and then `B`, with K's default, and
      records nothing; only `B` is added to the stored names. */
  lemma TwoNameStatementCreates(p: Parser, q1: Parser, q2: Parser, q3: Parser, q4: Parser, q5: Parser, q6: Parser)
    requires p.Valid() && p.At(Name) && p.sym.name.text !in p.stored
    requires p.Advance() == Done(q1) && q1.At(Comma)
    requires q1.Valid() && q1.Advance() == Done(q2) && NewName(q2, [p.sym.name.text])
    requires q2.Valid() && q2.Advance() == Done(q3) && q3.At(Equal)
    requires q3.Valid() && q3.Advance() == Done(q4) && q4.At(Logic) && KindOf(q4.sym.name) != Some(Clock)
    requires q4.Valid() && q4.Advance() == Done(q5) && q5.At(Semicolon)
    requires q5.Valid() && q5.Advance() == Done(q6)
    ensures ParseDeviceLine(p).Done?
    ensures var r := ParseDeviceLine(p).value;
      var k := KindOf(q4.sym.name).value;
      && r.errors == p.errors && r.stored == p.stored + [q2.sym.name.text]
      && CreatesInOrder(p, r, [p.sym.name.text, q2.sym.name.text], k, Default(k))
  {
    var a, b := p.sym.name.text, q2.sym.name.text;
    var st := p.stored + [b];
    TwoNames(p, q1, q2, q3);
    AdvanceStored(q3, st);
    AdvanceStored(q4, st);
    AdvanceStored(q5, st);
    var s3, s4, s5, s6 := q3.(stored := st), q4.(stored := st), q5.(stored := st), q6.(stored := st);
    RestIsGate(s3, [a, b], s4, s5);
    FollowsTransitive(q2, q3, q4);
    FollowsTransitive(q2, q4, q5);
    assert p.scan.names <= q3.scan.names && q3.scan.names <= q5.scan.names;
    TwoInterned(p, q2, s5);
    GateOnSemicolon(s5, q4.sym.name, [a, b], s6);
    var k := KindOf(q4.sym.name).value;
    CreatesInOrderFrom(p, s5, GateAndAdvance(s5, q4.sym.name, [a, b]).value, [a, b], k, Default(k));
  }

  /** `A , B` with both names new and no further comma: the statement is the
      rest `'=' ...` after the batch `[A, B]`, with `B` stored. */
  lemma TwoNames(p: Parser, q1: Parser, q2: Parser, q3: Parser)
    requires p.Valid() && p.At(Name) && p.sym.name.text !in p.stored
    requires p.Advance() == Done(q1) && q1.At(Comma)
    requires q1.Valid() && q1.Advance() == Done(q2) && NewName(q2, [p.sym.name.text])
    requires q2.Valid() && q2.Advance() == Done(q3) && !q3.At(Comma)
    ensures q3.log == p.log && q3.errors == p.errors && q3.stored == p.stored && p.scan.names <= q3.scan.names
    ensures ParseDeviceLine(p) ==
      DeviceLineRest(q3.(stored := p.stored + [q2.sym.name.text]), [p.sym.name.text, q2.sym.name.text])
  {
    var a, b := p.sym.name.text, q2.sym.name.text;
    FirstNameRead(p, q1);
    CommaThenName(q1, [a], q2, q3);
    Singletons(a, b);
    NamesThenRest(q1, a, q3.(stored := p.stored + [b]), [a, b]);
  }

  /** A new first name is read past before the comma loop. */
  lemma FirstNameRead(p: Parser, q1: Parser)
    requires p.Valid() && p.At(Name) && p.sym.name.text !in p.stored
    requires p.Advance() == Done(q1)
    ensures ParseDeviceLine(p) == NamesAndRest(q1, p.sym.name.text)
  {
    assert ValidateDeviceName(p, []) == (Some(true), p);
    assert ParseDeviceLine(p) == AfterFirstName(p, p.sym.name.text);
  }

  /** A valid comma loop is followed by the rest of the statement. */
  lemma NamesThenRest(p: Parser, first: string, q: Parser, batch: seq<string>)
    requires p.Valid() && NameList(p, [first]) == Done((q, batch, true))
    ensures NamesAndRest(p, first) == DeviceLineRest(q, batch)
  {
  }

  /** `, B` with `B` new and no comma after it: the comma loop appends and
      stores `B` and ends, valid. */
  lemma CommaThenName(p: Parser, batch: seq<string>, q1: Parser, q2: Parser)
    requires p.Valid() && p.At(Comma)
    requires p.Advance() == Done(q1) && NewName(q1, batch)
    requires q1.Valid() && q1.Advance() == Done(q2) && !q2.At(Comma)
    ensures NameList(p, batch) ==
      Done((q2.(stored := p.stored + [q1.sym.name.text]), batch + [q1.sym.name.text], true))
  {
    var b := q1.sym.name.text;
    AdvanceStored(q1, p.stored + [b]);
    assert ValidateDeviceName(q1, batch) == (Some(true), q1);
    assert AfterComma(q1, batch) == Done((q2.(stored := p.stored + [b]), batch + [b], Continue));
  }

  /** The names of a statement's batch are in the name table of a later state. */
  lemma TwoInterned(p: Parser, q: Parser, s: Parser)
    requires p.Valid() && p.At(Name) && q.Valid() && q.At(Name)
    requires p.scan.names <= s.scan.names && q.scan.names <= s.scan.names
    ensures forall i :: 0 <= i < |[p.sym.name.text, q.sym.name.text]| ==>
      [p.sym.name.text, q.sym.name.text][i] in s.scan.names
  {
    assert p.sym.name.text == p.scan.names[p.sym.id.value];
    assert q.sym.name.text == q.scan.names[q.sym.id.value];
  }

  /** A new first name and no comma after it: the statement is the rest
      `'=' ...` after that one name. */
  lemma SingleName(p: Parser, q1: Parser)
    requires p.Valid() && p.At(Name) && p.sym.name.text !in p.stored
    requires p.Advance() == Done(q1) && !q1.At(Comma)
    ensures ParseDeviceLine(p) == DeviceLineRest(q1, [p.sym.name.text])
  {
    var a := p.sym.name.text;
    assert ValidateDeviceName(p, []) == (Some(true), p);
    assert ParseDeviceLine(p) == AfterFirstName(p, a);
    assert NameList(q1, [a]) == Done((q1, [a], true));
    var r := DeviceLineRest(q1, [a]);
    assert NamesAndRest(q1, a) == r;
  }

  /** `'=' LOGIC` is read past before the gate's production. */
  lemma RestIsGate(p: Parser, batch: seq<string>, q1: Parser, q2: Parser)
    requires p.Valid() && p.At(Equal)
    requires p.Advance() == Done(q1) && q1.At(Logic)
    requires q1.Advance() == Done(q2)
    ensures DeviceLineRest(p, batch) == GateAndAdvance(q2, q1.sym.name, batch)
  {
  }

  /** A kind other than CLOCK on `;`, and the `advance` after it: the batch
      is created with the kind's default and nothing is recorded. */
  lemma GateOnSemicolon(p: Parser, gate: SymName, batch: seq<string>, q: Parser)
    requires p.Valid() && p.At(Semicolon) && KindOf(gate).Some? && KindOf(gate).value != Clock
    requires forall i :: 0 <= i < |batch| ==> batch[i] in p.scan.names
    requires p.Advance() == Done(q)
    ensures GateAndAdvance(p, gate, batch).Done?
    ensures var r := GateAndAdvance(p, gate, batch).value;
      var k := KindOf(gate).value;
      && r.errors == p.errors && r.stored == p.stored
      && CreatesInOrder(p, r, batch, k, Default(k))
  {
    var k := KindOf(gate).value;
    var c := Create(p, k, batch, Default(k));
    assert ParseLogicGate(p, gate, batch) == Done(c);
    var q' := q.(errors := c.errors, stored := c.stored, log := c.log);
    assert c.Advance() == Done(q');
    assert GateAndAdvance(p, gate, batch) == Done(q');
    CreatesInOrderLater(p, c, q', batch, k, Default(k));
  }

  /** An out-of-range parameter, say `AND(17)` followed by `;`, records one
      INVALID_NUMBER and still creates the devices with that parameter. */
  lemma OutOfRangeStillCreates(p: Parser, gate: SymName, batch: seq<string>)
    requires p.Valid() && KindOf(gate).Some? && KindOf(gate).value != DType && ParamAhead(p)
    requires !InRange(KindOf(gate).value, NextNumber(p))
    ensures ParseLogicGate(p, gate, batch).Done?
    ensures var q := ParseLogicGate(p, gate, batch).value;
      && CreatesInOrder(p, q, batch, KindOf(gate).value, NextNumber(p))
      && NewCodes(q.errors, |p.errors|) == [Code.InvalidNumber]
  {
    var q := ParseLogicGate(p, gate, batch).value;
    assert BuiltWith(p, q, batch, KindOf(gate).value, NextNumber(p));
  }

  /** Creation requests stay valid as the name table grows. */
  lemma CreatesInOrderLater(p: Parser, q: Parser, q': Parser, batch: seq<string>, k: DeviceKind, n: nat)
    requires CreatesInOrder(p, q, batch, k, n)
    requires q'.log == q.log && q.scan.names <= q'.scan.names
    ensures CreatesInOrder(p, q', batch, k, n)
  {
    forall i | 0 <= i < |batch|
      ensures CreatesNamed(q'.log[|p.log| + i], q'.scan.names, batch[i], k, n)
    {
      assert CreatesNamed(q.log[|p.log| + i], q.scan.names, batch[i], k, n);
    }
  }

  /** The iteration bound of the statement loops. */
  const LoopBound: nat := 500

  /** `parse_devices`, `i` being the iterations already made. */
  function ParseDevices(p: Parser, i: nat): (r: Outcome<Parser>)
    requires p.Valid() && i <= LoopBound
    ensures r.Done? || r.Hang?
    ensures r.Done? ==> Follows(p, r.value)
    ensures r.Done? ==> LoopEnded(p, r.value)
    ensures r.Done? ==> OnlyCreations(p.log, r.value.log)
    decreases LoopBound - i, 1
  {
    if p.At(OpenSquareBracket) then Done(p)
    else if p.At(Heading) || p.At(Eof) then Done(p.AddError(SyntaxError))
    else if i + 1 > LoopBound then Done(p.AddError(OverflowError))
    else DevicesIteration(p, i)
  }

  /** One iteration of `parse_devices` that reads a statement, and the rest
      of the loop. */
  function DevicesIteration(p: Parser, i: nat): (r: Outcome<Parser>)
    requires p.Valid() && i < LoopBound
    ensures r.Done? || r.Hang?
    ensures r.Done? ==> Follows(p, r.value)
    ensures r.Done? ==> LoopEnded(p, r.value)
    ensures r.Done? ==> OnlyCreations(p.log, r.value.log)
    decreases LoopBound - i, 0
  {
    var q :- ParseDeviceLine(p);
    var r := ParseDevices(q, i + 1);
    if r.Done? then
      FollowsTransitive(p, q, r.value);
      OnlyCreationsTrans(p.log, q.log, r.value.log);
      LoopEndedFrom(p, q, r.value);
      r
    else r
  }

  /** `n` copies of the diagnostic `d`. */
  function Copies(d: Diag, n: nat): (r: seq<Diag>)
    ensures |r| == n && forall j :: 0 <= j < n ==> r[j] == d
  {
    seq(n, _ => d)
  }

  /** A statement that does not start with a name reads nothing, so the
      statement loop records INVALID_NAME on every remaining iteration and
      stops only at the iteration guard, with OVERFLOW_ERROR. */
  lemma {:induction false} DevicesStall(p: Parser, i: nat)
    requires p.Valid() && i <= LoopBound
    requires !p.At(Name) && !p.At(OpenSquareBracket) && !p.At(Heading) && !p.At(Eof)
    ensures ParseDevices(p, i) == Done(p.(errors := p.errors
      + Copies(DiagAt(p.scan, Code.InvalidName), LoopBound - i) + [DiagAt(p.scan, OverflowError)]))
    decreases LoopBound - i
  {
    if i < LoopBound {
      var q := p.AddError(Code.InvalidName);
      assert ParseDeviceLine(p) == Done(q);
      DevicesStall(q, i + 1);
      assert ParseDevices(p, i) == DevicesIteration(p, i) == ParseDevices(q, i + 1);
      var d := DiagAt(p.scan, Code.InvalidName);
      assert q.errors == p.errors + [d];
      assert [d] + Copies(d, LoopBound - (i + 1)) == Copies(d, LoopBound - i);
      assert q.errors + Copies(d, LoopBound - (i + 1)) == p.errors + Copies(d, LoopBound - i);
    } else {
      assert ParseDevices(p, i) == Done(p.AddError(OverflowError));
      assert p.errors + Copies(DiagAt(p.scan, Code.InvalidName), 0) == p.errors;
    }
  }

  /** How a statement loop ends: at a `[`, or with a SYNTAX_ERROR at a
      heading or the end of the file, or with an OVERFLOW_ERROR. */
  predicate LoopEnded(p: Parser, q: Parser) {
    || q.At(OpenSquareBracket)
    || (|q.errors| > |p.errors| && q.errors[|q.errors| - 1].code == SyntaxError
        && (q.At(Heading) || q.At(Eof)))
    || (|q.errors| > |p.errors| && q.errors[|q.errors| - 1].code == OverflowError)
  }

  /** A loop end after `q` is one after any earlier state `p`. */
  lemma LoopEndedFrom(p: Parser, q: Parser, r: Parser)
    requires |p.errors| <= |q.errors| && LoopEnded(q, r)
    ensures LoopEnded(p, r)
  {
  }

  /** A section header `[` HEADING(word) `]`: true and the state after the
      `]` when it is there, otherwise false after one INVALID_HEADER. */
  function Header(p: Parser, word: string): (r: Outcome<(bool, Parser)>)
    requires p.Valid()
    ensures r.Done? || r.Hang?
    ensures r.Done? ==> Follows(p, r.value.1) && HeaderRead(p, r.value.0, r.value.1)
    ensures r.Done? && r.value.0 ==> p.At(OpenSquareBracket)
    ensures !p.At(OpenSquareBracket) ==> r == Done((false, p.AddError(InvalidHeader)))
    ensures r.Done? ==> (r.value.0 <==> HeaderAhead(p, word))
  {
    if !p.At(OpenSquareBracket) then Done((false, p.AddError(InvalidHeader)))
    else
      var p1 :- p.Advance();
      var (ok, q) :- HeaderWord(p1, word);
      FollowsTransitive(p, p1, q);
      Done((ok, q))
  }

  /** `p` is on the `[` of a header `[` HEADING(word) `]`. */
  predicate HeaderAhead(p: Parser, word: string)
    requires p.Valid()
  {
    && p.At(OpenSquareBracket) && p.Advance().Done?
    && WordAhead(p.Advance().value, word)
  }

  /** `p` is on HEADING(word), and a `]` follows. */
  predicate WordAhead(p: Parser, word: string)
    requires p.Valid()
  {
    p.At(Heading) && p.sym.name == Text(word) && NextKinds(p, [CloseSquareBracket])
  }

  /** What reading a header leaves behind: nothing new but, when it is not
      accepted, one INVALID_HEADER. */
  predicate HeaderRead(p: Parser, ok: bool, q: Parser) {
    && q.stored == p.stored && q.log == p.log
    && (ok ==> q.errors == p.errors)
    && (!ok ==> |q.errors| == |p.errors| + 1 && q.errors[|p.errors|].code == InvalidHeader)
  }

  /** The header's word and closing bracket, on the symbol after `[`. */
  function HeaderWord(p: Parser, word: string): (r: Outcome<(bool, Parser)>)
    requires p.Valid()
    ensures r.Done? || r.Hang?
    ensures r.Done? ==> Follows(p, r.value.1) && HeaderRead(p, r.value.0, r.value.1)
    ensures !(p.At(Heading) && p.sym.name == Text(word)) ==> r == Done((false, p.AddError(InvalidHeader)))
    ensures r.Done? ==> (r.value.0 <==> WordAhead(p, word))
  {
    if !(p.At(Heading) && p.sym.name == Text(word)) then
      Done((false, p.AddError(InvalidHeader)))
    else
      var p1 :- p.Advance();
      var (ok, q) :- HeaderClose(p1);
      FollowsTransitive(p, p1, q);
      Done((ok, q))
  }

  /** The closing bracket, read past when it is there. */
  function HeaderClose(p: Parser): (r: Outcome<(bool, Parser)>)
    requires p.Valid()
    ensures r.Done? || r.Hang?
    ensures r.Done? ==> Follows(p, r.value.1) && HeaderRead(p, r.value.0, r.value.1)
    ensures !p.At(CloseSquareBracket) ==> r == Done((false, p.AddError(InvalidHeader)))
    ensures r.Done? ==> (r.value.0 <==> p.At(CloseSquareBracket))
  {
    if !p.At(CloseSquareBracket) then Done((false, p.AddError(InvalidHeader)))
    else
      var p1 :- p.Advance();
      Done((true, p1))
  }

  /** `parse_devices_block`: the header, then the statement loop. A bad
      header records one INVALID_HEADER and no statement is read. */
  function ParseDevicesBlock(p: Parser): (r: Outcome<Parser>)
    requires p.Valid()
    ensures r.Done? || r.Hang?
    ensures r.Done? ==> Follows(p, r.value)
    ensures !p.At(OpenSquareBracket) ==> r == Done(p.AddError(InvalidHeader))
    ensures r.Done? && r.value.log != p.log ==> p.At(OpenSquareBracket)
    ensures r.Done? ==> OnlyCreations(p.log, r.value.log)
    ensures r.Done? && !HeaderAhead(p, "devices") ==> HeaderRead(p, false, r.value)
    ensures r.Done? && HeaderAhead(p, "devices") ==> LoopEnded(p, r.value)
  {
    var (ok, p1) :- Header(p, "devices");
    if ok then
      var r := ParseDevices(p1, 0);
      if r.Done? then
        FollowsTransitive(p, p1, r.value);
        LoopEndedFrom(p, p1, r.value);
        r
      else r
    else Done(p1)
  }
}

=== FILE: names.dfy ===
/** The name table shared by the scanner and the parser.

    The table's own implementation is not part of this model; it is
    represented by the sequence of distinct names it has interned, a name's
    id being its index. `Lookup` interns (appending unseen names, in order),
    `Query` only looks. */
module NameTable {

  import opened Wrappers

  predicate Distinct(t: seq<string>) {
    forall i, j :: 0 <= i < j < |t| ==> t[i] != t[j]
  }

  /** The id of `name`, or None when it has never been interned. */
  function Query(t: seq<string>, name: string): (r: Option<nat>)
    ensures r.Some? <==> name in t
    ensures r.Some? ==> r.value < |t| && t[r.value] == name
  {
    if |t| == 0 then None
    else if t[|t| - 1] == name then Some(|t| - 1)
    else Query(t[..|t| - 1], name)
  }

  /** Interns one name: the table grows by that name exactly when it was unseen. */
  function Intern(t: seq<string>, name: string): (r: (seq<string>, nat))
    requires Distinct(t)
    ensures Distinct(r.0)
    ensures name in t ==> r.0 == t
    ensures name !in t ==> r.0 == t + [name]
    ensures r.1 < |r.0| && r.0[r.1] == name
  {
    match Query(t, name)
    case Some(id) => (t, id)
    case None => (t + [name], |t|)
  }

  /** Interns a list of names, returning their ids in the order given. */
  function Lookup(t: seq<string>, names: seq<string>): (r: (seq<string>, seq<nat>))
    requires Distinct(t)
    ensures Distinct(r.0)
    ensures t <= r.0
    ensures |r.1| == |names|
    ensures forall i :: 0 <= i < |names| ==> r.1[i] < |r.0| && r.0[r.1[i]] == names[i]
    ensures (forall i :: 0 <= i < |names| ==> names[i] in t) ==> r.0 == t
    decreases |names|
  {
    if names == [] then (t, [])
    else
      var (t1, id) := Intern(t, names[0]);
      var (t2, ids) := Lookup(t1, names[1..]);
      assert forall i :: 1 <= i < |names| ==> names[1..][i - 1] == names[i];
      (t2, [id] + ids)
  }

  /** In a table of distinct names, a name's id is the only index holding it. */
  lemma {:induction false} QueryFindsIndex(t: seq<string>, i: nat)
    requires Distinct(t)
    requires i < |t|
    ensures Query(t, t[i]) == Some(i)
  {
    if i < |t| - 1 {
      assert t[..|t| - 1][i] == t[i];
      QueryFindsIndex(t[..|t| - 1], i);
    }
  }

  /** After interning, querying a name gives the id interning returned. */
  lemma QueryAfterLookup(t: seq<string>, names: seq<string>, i: nat)
    requires Distinct(t)
    requires i < |names|
    ensures Query(Lookup(t, names).0, names[i]) == Some(Lookup(t, names).1[i])
  {
    var r := Lookup(t, names);
    QueryFindsIndex(r.0, r.1[i]);
  }
}

=== FILE: network.dfy ===
/** `Parser.__init__` and `parse_network`: a parser reads its first symbol
    when it is made, then parses the devices section and the connections
    section, and reports success whatever it recorded. */
module NetworkParsing {

  import opened Wrappers
  import NameTable
  import opened Scanning
  import opened ParseState
  import DeviceParsing
  import ConnParsing

  /** `Parser.__init__`: a scanner over `text` sharing the name table
      `names`, and its first symbol. Nothing is recorded yet. */
  function NewParser(text: string, names: seq<string>): (r: Outcome<Parser>)
    requires NameTable.Distinct(names)
    ensures r.Done? || r.Hang?
    ensures r.Done? ==> r.value.Valid() && r.value.scan.text == text && names <= r.value.scan.names
    ensures r.Done? ==> r.value.errors == [] && r.value.stored == [] && r.value.log == []
  {
    var st :- GetSymbol(Start(text, names));
    Done(Parser(st.scan, st.sym, [], [], []))
  }

  /** The requests of a pass: device creations, then connections. */
  ghost predicate CreationsThenConnections(log: seq<Request>) {
    exists k :: SplitAt(log, k)
  }

  /** The first `k` requests of `log` create devices and the rest connect. */
  predicate SplitAt(log: seq<Request>, k: int) {
    && 0 <= k <= |log|
    && (forall m :: 0 <= m < k ==> !log[m].MakeConnection?)
    && (forall m :: k <= m < |log| ==> log[m].MakeConnection?)
  }

  /** Creations followed by connections split where the connections start. */
  lemma SplitAfterCreations(log: seq<Request>, log': seq<Request>, pins: DTypePins)
    requires DeviceParsing.OnlyCreations([], log) && ConnParsing.ToFlipFlopPins(log, log', pins)
    ensures SplitAt(log', |log|)
  {
    assert forall m :: 0 <= m < |log| ==> log'[m] == log[m];
  }

  /** `parse_network`: the devices section, then the connections section;
      the result is always True, whatever diagnostics were recorded. */
  function ParseNetwork(p: Parser, env: Env, fuel: nat): (r: Outcome<(bool, Parser)>)
    requires p.Valid()
    ensures r.Done? || r.Hang? || r.OutOfFuel? ||
      (r.Crash? && (r.fault == TypeError || r.fault == ValueError || r.fault == IndexError))
    ensures r.Done? ==> r.value.0 && Follows(p, r.value.1)
    ensures r.Done? && p.log == [] ==> CreationsThenConnections(r.value.1.log)
  {
    var p1 :- DeviceParsing.ParseDevicesBlock(p);
    var p2 :- ConnParsing.ParseConnsBlock(p1, env, fuel);
    FollowsTransitive(p, p1, p2);
    if p.log == [] then
      SplitAfterCreations(p1.log, p2.log, env.pins);
      Done((true, p2))
    else Done((true, p2))
  }

  /** A whole pass over `text`: make the parser, then parse the network. */
  function Parse(text: string, names: seq<string>, env: Env, fuel: nat): (r: Outcome<(bool, Parser)>)
    requires NameTable.Distinct(names)
    ensures r.Done? || r.Hang? || r.OutOfFuel? ||
      (r.Crash? && (r.fault == TypeError || r.fault == ValueError || r.fault == IndexError))
    ensures r.Done? ==> r.value.0 && r.value.1.scan.text == text
    ensures r.Done? ==> CreationsThenConnections(r.value.1.log)
  {
    var p :- NewParser(text, names);
    ParseNetwork(p, env, fuel)
  }

  /** A file that does not start with `[` gets an INVALID_HEADER for each
      section and nothing else, and parse_network still reports success. */
  lemma HeaderlessFileAccepted(p: Parser, env: Env, fuel: nat)
    requires p.Valid() && !p.At(OpenSquareBracket)
    ensures ParseNetwork(p, env, fuel) == Done((true, p.AddError(InvalidHeader).AddError(InvalidHeader)))
  {
  }

  /** The empty file is accepted, with two INVALID_HEADER diagnostics. */
  lemma EmptyFileAccepted(env: Env, fuel: nat)
    ensures Parse("", [], env, fuel).Done?
    ensures Parse("", [], env, fuel).value.0
    ensures NewCodes(Parse("", [], env, fuel).value.1.errors, 0) == [InvalidHeader, InvalidHeader]
    ensures Parse("", [], env, fuel).value.1.log == []
  {
    var s := Start("", []);
    var st := GetSymbol(s);
    assert st.Done? && st.value.sym.kind == Some(Eof);
    var p := Parser(st.value.scan, st.value.sym, [], [], []);
    HeaderlessFileAccepted(p, env, fuel);
  }
}

=== FILE: parse_state.dfy ===
/** The state the parser of parse.py threads through its methods: the
    scanner it pulls symbols from, the current symbol, the diagnostics it
    has recorded, the names stored for duplicate checks, and the log of
    requests it has issued to the device registry and the network. */
module ParseState {

  import opened Wrappers
  import NameTable
  import opened Scanning

  /** Parser error codes (errors.ErrorCodes). */
  datatype Code =
    | InvalidHeader | InvalidName | NameDefined | InvalidLogicGate | InvalidNumber
    | SyntaxError | OverflowError | InvalidPin | InvalidDevice

  /** A parser diagnostic: the scanner's line, that line's text and the
      scanner's column when it was recorded (the message text is left out). */
  datatype Diag = Diag(line: nat, lineContent: string, column: nat, code: Code)

  datatype GateKind = And | Nand | Or | Nor | Xor

  /** The requests the parser issues. Device and pin numbers are name ids. */
  datatype Request =
    | MakeGate(device: nat, gate: GateKind, inputs: nat)
    | MakeDType(device: nat)
    | MakeClock(device: nat, period: nat)
    | MakeSwitch(device: nat, output: nat)
    | MakeConnection(outDevice: Option<nat>, outPin: Option<nat>, inDevice: nat, inPin: nat)

  datatype Parser = Parser(
    scan: Scanner,
    sym: Symbol,                 // the current symbol
    errors: seq<Diag>,
    stored: seq<string>,         // stored_device_list
    log: seq<Request>)
  {
    /** The scanner is consistent, and the current symbol's name is interned
        and of the form its kind gives it. */
    predicate Valid() {
      Scanning.Valid(scan) && Interned(sym, scan.names) && Typed(sym)
    }

    /** Characters the scanner has still to pass. */
    function Remaining(): nat
      requires Valid()
    {
      Scanning.Remaining(scan)
    }

    /** Is the current symbol of kind `k`? */
    predicate At(k: SymKind) {
      sym.kind == Some(k)
    }

    /** `Parser.advance`: the next symbol from the scanner. */
    function Advance(): (r: Outcome<Parser>)
      requires Valid()
      ensures r.Done? || r.Hang?
      ensures r.Done? ==> Follows(this, r.value)
      ensures r.Done? ==> r.value.errors == errors && r.value.stored == stored && r.value.log == log
      ensures r.Done? && Consuming(r.value.sym.kind) ==> r.value.Remaining() < Remaining()
    {
      var st :- GetSymbol(scan);
      Done(this.(scan := st.scan, sym := st.sym))
    }

    /** `add_error`: a diagnostic at the scanner's current position. */
    function AddError(code: Code): (q: Parser)
      requires Valid()
      ensures Follows(this, q)
      ensures q.errors == errors + [DiagAt(scan, code)]
      ensures q.scan == scan && q.sym == sym && q.stored == stored && q.log == log
    {
      this.(errors := errors + [DiagAt(scan, code)])
    }
  }

  /** `advance` reads from the scanner alone: the stored names ride along. */
  lemma AdvanceStored(p: Parser, stored: seq<string>)
    requires p.Valid()
    ensures p.(stored := stored).Valid()
    ensures p.Advance().Done? ==> p.(stored := stored).Advance() == Done(p.Advance().value.(stored := stored))
  {
  }

  /** Two names as a batch, and one pin name after none. */
  lemma Singletons(a: string, b: string)
    ensures [a] + [b] == [a, b] && [] + [b] == [b]
  {
  }

  /** The next symbols `advance` reads from `p` are of the kinds `ks`, in
      order (and reading them does not hang). */
  predicate NextKinds(p: Parser, ks: seq<SymKind>)
    requires p.Valid()
    decreases |ks|
  {
    || |ks| == 0
    || (p.Advance().Done? && p.Advance().value.At(ks[0]) && NextKinds(p.Advance().value, ks[1..]))
  }

  /** What follows depends on the scanner alone, not on the diagnostics. */
  lemma NextKindsScan(p: Parser, q: Parser, ks: seq<SymKind>)
    requires p.Valid() && q.Valid() && p.scan == q.scan
    ensures NextKinds(p, ks) <==> NextKinds(q, ks)
    decreases |ks|
  {
    if |ks| > 0 && p.Advance().Done? {
      var p1, q1 := p.Advance().value, q.Advance().value;
      assert p1.scan == q1.scan && p1.sym == q1.sym;
      NextKindsScan(p1, q1, ks[1..]);
    }
  }

  /** The ids the device registry gives the flip-flop pins. */
  datatype DTypePins = DTypePins(clk: nat, data: nat, setPin: nat, clear: nat, q: nat, qbar: nat)

  /** What the parser asks of the device registry it does not own: the
      flip-flop pin ids and `get_device`, which gives a device's ordered
      input-pin ids, or None for an unknown device. */
  datatype Env = Env(pins: DTypePins, device: nat -> Option<seq<nat>>)

  /** `q` is a later state of the same pass as `p`: same text, name table,
      both error lists, stored names and request log only ever extended, and
      the scanner no further back. */
  predicate Follows(p: Parser, q: Parser)
    requires p.Valid()
  {
    && q.Valid()
    && q.scan.text == p.scan.text
    && p.scan.names <= q.scan.names
    && p.scan.errors <= q.scan.errors
    && p.errors <= q.errors
    && p.stored <= q.stored
    && p.log <= q.log
    && q.Remaining() <= p.Remaining()
  }

  lemma FollowsTransitive(p: Parser, q: Parser, r: Parser)
    requires p.Valid() && Follows(p, q) && Follows(q, r)
    ensures Follows(p, r)
  {
  }

  /** The diagnostic `add_error` builds at the scanner's current position. */
  function DiagAt(s: Scanner, code: Code): Diag {
    Diag(s.line, LineAt(s.text, s.line), s.column, code)
  }

  /** The codes of the diagnostics recorded after the first `n`. */
  function NewCodes(errors: seq<Diag>, n: nat): (r: seq<Code>)
    requires n <= |errors|
    ensures |r| == |errors| - n
    ensures forall i :: 0 <= i < |r| ==> r[i] == errors[n + i].code
  {
    seq(|errors| - n, i requires 0 <= i < |errors| - n => errors[n + i].code)
  }

  /** `names.lookup` on the shared name table. */
  function LookupNames(p: Parser, names: seq<string>): (r: (Parser, seq<nat>))
    requires p.Valid()
    ensures Follows(p, r.0)
    ensures r.0 == p.(scan := r.0.scan) && r.0.scan == p.scan.(names := r.0.scan.names)
    ensures |r.1| == |names|
    ensures forall i :: 0 <= i < |names| ==> r.1[i] < |r.0.scan.names| && r.0.scan.names[r.1[i]] == names[i]
    ensures (forall i :: 0 <= i < |names| ==> names[i] in p.scan.names) ==> r.0 == p
  {
    var (t, ids) := NameTable.Lookup(p.scan.names, names);
    (p.(scan := p.scan.(names := t)), ids)
  }
}

=== FILE: scanner.dfy ===
/** The scanner of scanner.py: turns the characters of a definition file into
    symbols, one per `GetSymbol` call.

    The file is an in-memory character sequence; `file.read(1)` becomes
    "the next character, or None at the end". The cursor is the index of the
    next character to read, the current character, and the line and column
    counters the source keeps for diagnostics. */
module Scanning {

  import opened Wrappers
  import opened CharClass
  import NameTable

  /** The token kinds of `SymbolList`. INPUT and OUTPUT are declared there
      but never produced. */
  datatype SymKind =
    | Heading | Logic | Number | Name | Input | Output
    | Equal | Dot | Comma | Semicolon
    | OpenBracket | CloseBracket | OpenSquareBracket | CloseSquareBracket
    | Eof

  /** A symbol's `name`: the text read, except for numbers, whose name is
      the integer value. */
  datatype SymName = Text(text: string) | Num(value: nat)

  /** `Symbol`: a kind (None for an invalid character), an optional name id,
      and the name. */
  datatype Symbol = Symbol(kind: Option<SymKind>, id: Option<nat>, name: SymName)

  datatype ScanErrorCode = InvalidCharacter | InvalidName | InvalidNumber

  /** The recorded fields of a `ScannerError` (its message text is left out). */
  datatype ScanError = ScanError(line: nat, lineContent: string, column: int, code: ScanErrorCode)

  datatype Scanner = Scanner(
    text: string,
    next: nat,              // index of the next character `read(1)` returns
    cur: Option<char>,      // current_character; None is the empty string at end of file
    line: nat,              // current_line
    column: nat,            // current_position
    names: seq<string>,     // the shared name table
    errors: seq<ScanError>,
    errorCount: nat)

  datatype Step = Step(sym: Symbol, scan: Scanner)

  const HeadingList: seq<string> := ["devices", "conns", "monit"]
  const LogicList: seq<string> := ["DTYPE", "NAND", "NOR", "XOR", "AND", "OR", "CLOCK", "SWITCH"]
  /** The heading and logic words in lower case. */
  const Keywords: seq<string> :=
    ["devices", "conns", "monit", "dtype", "nand", "nor", "xor", "and", "or", "clock", "switch"]

  /** `l` is `w` lower-cased when it agrees with it character by character. */
  lemma LowerOf(w: string, l: string)
    requires |w| == |l| && forall j :: 0 <= j < |w| ==> LowerChar(w[j]) == l[j]
    ensures Lower(w) == l
  {
  }

  /** The keyword list is the heading and logic lists, lower-cased word by word. */
  lemma KeywordsLowered()
    ensures |Keywords| == |HeadingList + LogicList|
    ensures forall i :: 0 <= i < |Keywords| ==> Keywords[i] == Lower((HeadingList + LogicList)[i])
  {
    var all := HeadingList + LogicList;
    forall i | 0 <= i < |Keywords|
      ensures Keywords[i] == Lower(all[i])
    {
      LowerOf(all[i], Keywords[i]);
    }
  }

  /** The kind of a single-character symbol, None for any other character. */
  function PunctuationKind(c: char): (r: Option<SymKind>)
    ensures r.Some? ==> !IsAlpha(c) && !IsDigit(c) && c != '#'
  {
    if c == '=' then Some(Equal)
    else if c == '.' then Some(Dot)
    else if c == ',' then Some(Comma)
    else if c == ';' then Some(Semicolon)
    else if c == '(' then Some(OpenBracket)
    else if c == ')' then Some(CloseBracket)
    else if c == '[' then Some(OpenSquareBracket)
    else if c == ']' then Some(CloseSquareBracket)
    else None
  }

  /** Newlines among the first `n` characters of `t`. */
  function NewlinesBefore(t: string, n: nat): nat
    requires n <= |t|
  {
    if n == 0 then 0 else NewlinesBefore(t, n - 1) + (if t[n - 1] == '\n' then 1 else 0)
  }

  /** Characters read since the last newline among the first `n` of `t`. */
  function ColumnAfter(t: string, n: nat): nat
    requires n <= |t|
  {
    if n == 0 then 0 else if t[n - 1] == '\n' then 0 else ColumnAfter(t, n - 1) + 1
  }

  /** The cursor is consistent with the text: the current character is the
      last one read (or the initial blank), the line counts the newlines read,
      the column counts the characters read since the last newline (plus the
      one step past the end of the file), and `error_count` matches `errors`. */
  predicate Valid(s: Scanner) {
    && s.next <= |s.text|
    && (s.cur.None? ==> s.next == |s.text|)
    && (s.next == 0 && s.cur.Some? ==> s.cur.value == ' ')
    && (s.next > 0 && s.cur.Some? ==> s.cur.value == s.text[s.next - 1])
    && s.line == NewlinesBefore(s.text, s.next)
    && s.column == ColumnAfter(s.text, s.next) + (if s.cur.None? then 1 else 0)
    && s.errorCount == |s.errors|
    && NameTable.Distinct(s.names)
  }

  /** Characters (counting the current one) the scanner has still to pass. */
  function Remaining(s: Scanner): nat
    requires Valid(s)
  {
    |s.text| - s.next + (if s.cur.Some? then 1 else 0)
  }

  /** Index of the current character in the text; -1 for the initial blank,
      |text| at the end. */
  function CurIndex(s: Scanner): int
  {
    if s.cur.Some? then s.next - 1 else |s.text|
  }

  /** A fresh scanner over `text` (Scanner.__init__), sharing name table `names`. */
  function Start(text: string, names: seq<string>): (s: Scanner)
    requires NameTable.Distinct(names)
    ensures Valid(s) && Remaining(s) == |text| + 1
    ensures s.text == text && s.names == names && s.errors == [] && s.cur == Some(' ')
    ensures s.line == 0 && s.column == 0
  {
    Scanner(text, 0, Some(' '), 0, 0, names, [], 0)
  }

  /** `advance`: read the next character; a newline starts a new line. */
  function Advance(s: Scanner): (r: Scanner)
    requires Valid(s) && s.cur.Some?
    ensures Valid(r)
    ensures Remaining(r) == Remaining(s) - 1
    ensures CurIndex(r) == CurIndex(s) + 1
    ensures r.text == s.text && r.names == s.names && r.errors == s.errors
    ensures r.line == s.line + (if r.cur == Some('\n') then 1 else 0)
    ensures r.column == if r.cur == Some('\n') then 0 else s.column + 1
  {
    if s.next < |s.text| then
      var c := s.text[s.next];
      s.(next := s.next + 1, cur := Some(c),
         line := if c == '\n' then s.line + 1 else s.line,
         column := if c == '\n' then 0 else s.column + 1)
    else
      s.(cur := None, column := s.column + 1)
  }

  /** `get_current_line`: line `k` (counted from 0) of `t` as `readline`
      returns it, with its newline; empty past the last line. */
  function LineAt(t: string, k: nat): (r: string)
    ensures |r| <= |t|
    decreases k
  {
    var e := LineEnd(t, 0);
    if k == 0 then t[..e] else LineAt(t[e..], k - 1)
  }

  /** Index just past the first newline at or after `i`, or |t|. */
  function LineEnd(t: string, i: nat): (e: nat)
    requires i <= |t|
    ensures i <= e <= |t|
    ensures i < |t| ==> i < e
    ensures forall j :: i <= j < e - 1 ==> t[j] != '\n'
    ensures e < |t| ==> 0 < e && t[e - 1] == '\n'
    ensures e == |t| && i < e ==> t[e - 1] == '\n' || '\n' !in t[i..]
    decreases |t| - i
  {
    if i == |t| then i else if t[i] == '\n' then i + 1 else LineEnd(t, i + 1)
  }

  /** `skip_spaces`. */
  function SkipSpaces(s: Scanner): (r: Scanner)
    requires Valid(s)
    ensures Valid(r)
    ensures r.text == s.text && r.names == s.names && r.errors == s.errors
    ensures Remaining(r) <= Remaining(s)
    ensures r.cur.None? || !IsSpace(r.cur.value)
    ensures forall i :: 0 <= i && CurIndex(s) <= i < CurIndex(r) ==> IsSpace(s.text[i])
    decreases Remaining(s)
  {
    if s.cur.Some? && IsSpace(s.cur.value) then SkipSpaces(Advance(s)) else s
  }

  /** The comment loop `while current_character != "\n": advance()`. At the
      end of the file the current character stays empty, so the loop never
      exits: that is `Hang`. */
  function SkipToNewline(s: Scanner): (r: Outcome<Scanner>)
    requires Valid(s)
    ensures r.Done? || r.Hang?
    ensures r.Hang? <==> s.cur != Some('\n') && '\n' !in s.text[s.next..]
    ensures r.Done? ==> Valid(r.value) && r.value.cur == Some('\n')
    ensures r.Done? ==> r.value.text == s.text && r.value.names == s.names && r.value.errors == s.errors
    ensures r.Done? ==> Remaining(r.value) <= Remaining(s) && CurIndex(s) <= CurIndex(r.value)
    ensures r.Done? ==> NoNewline(s.text, CurIndex(s), CurIndex(r.value))
    decreases Remaining(s)
  {
    if s.cur == Some('\n') then Done(s)
    else if s.cur.None? then Hang
    else
      var s1 := Advance(s);
      NewlineInTail(s.text, s.next);
      var r := SkipToNewline(s1);
      if r.Done? then
        NoNewlineCons(s.text, CurIndex(s), CurIndex(r.value));
        r
      else r
  }

  /** A newline lies at or after index `n` exactly when it is at `n` or after it. */
  lemma NewlineInTail(t: string, n: nat)
    ensures n < |t| ==> ('\n' in t[n..] <==> t[n] == '\n' || '\n' in t[n + 1..])
  {
    if n < |t| {
      assert t[n..] == [t[n]] + t[n + 1..];
    }
  }

  /** No character of `t` at an index from `i` up to `j` is a newline. */
  predicate NoNewline(t: string, i: int, j: int) {
    forall m :: 0 <= m < |t| && i <= m < j ==> t[m] != '\n'
  }

  lemma NoNewlineCons(t: string, i: int, j: int)
    requires i < 0 || i >= |t| || t[i] != '\n'
    requires NoNewline(t, i + 1, j)
    ensures NoNewline(t, i, j)
  {
  }

  /** Every character of `t` at an index from `i` up to `j` is whitespace. */
  predicate Blanks(t: string, i: int, j: int) {
    forall m :: 0 <= m < |t| && i <= m < j ==> IsSpace(t[m])
  }

  /** `t[i..j]` is one comment: a `#` and the characters after it up to the
      newline `t[j]` that ends it. */
  predicate Comment(t: string, i: int, j: int) {
    && 0 <= i < j < |t|
    && t[i] == '#' && t[j] == '\n'
    && NoNewline(t, i + 1, j)
  }

  /** The characters of `t` from index `i` up to `j` are blanks around at
      most one comment. */
  ghost predicate BlankSpan(t: string, i: int, j: int) {
    || Blanks(t, i, j)
    || exists a, b :: i <= a && b <= j && Blanks(t, i, a) && Comment(t, a, b) && Blanks(t, b, j)
  }

  /** What `get_symbol` does before classifying: skip blanks, at most one
      comment, and blanks again. */
  function SkipBlank(s: Scanner): (r: Outcome<Scanner>)
    requires Valid(s)
    ensures r.Done? || r.Hang?
    ensures r.Done? ==> Valid(r.value) && (r.value.cur.None? || !IsSpace(r.value.cur.value))
    ensures r.Done? ==> r.value.text == s.text && r.value.names == s.names && r.value.errors == s.errors
    ensures r.Done? ==> Remaining(r.value) <= Remaining(s)
    ensures r.Done? ==> BlankSpan(s.text, CurIndex(s), CurIndex(r.value))
    ensures r.Done? && SkipSpaces(s).cur == Some('#') ==>
      exists k :: Comment(s.text, CurIndex(SkipSpaces(s)), k) && k <= CurIndex(r.value)
  {
    var s1 := SkipSpaces(s);
    assert Blanks(s.text, CurIndex(s), CurIndex(s1));
    if s1.cur == Some('#') then
      var r :- SkipComment(s1);
      var k :| Comment(s1.text, CurIndex(s1), k) && k <= CurIndex(r) && Blanks(s1.text, k, CurIndex(r));
      assert CurIndex(s) <= CurIndex(s1);
      Done(r)
    else
      Done(s1)
  }

  /** A comment from the `#` under the cursor to its newline, and the blanks
      after it. */
  function SkipComment(s: Scanner): (r: Outcome<Scanner>)
    requires Valid(s) && s.cur == Some('#')
    ensures r.Done? || r.Hang?
    ensures r.Done? ==> Valid(r.value) && (r.value.cur.None? || !IsSpace(r.value.cur.value))
    ensures r.Done? ==> r.value.text == s.text && r.value.names == s.names && r.value.errors == s.errors
    ensures r.Done? ==> Remaining(r.value) < Remaining(s)
    ensures r.Done? ==> exists k :: && Comment(s.text, CurIndex(s), k) && k <= CurIndex(r.value)
                                    && Blanks(s.text, k, CurIndex(r.value))
  {
    var s2 :- SkipToNewline(Advance(s));
    assert Comment(s.text, CurIndex(s), CurIndex(s2));
    Done(SkipSpaces(s2))
  }

  /** The loops of `get_name` and `get_number`: the maximal run of
      characters satisfying `p` that starts at the current character. */
  function ReadWhile(s: Scanner, p: char -> bool): (r: (string, Scanner))
    requires Valid(s)
    requires forall c :: p(c) ==> IsAlnum(c)
    ensures Valid(r.1)
    ensures r.1.text == s.text && r.1.names == s.names && r.1.errors == s.errors
    ensures forall i :: 0 <= i < |r.0| ==> p(r.0[i])
    ensures r.1.cur.None? || !p(r.1.cur.value)
    ensures |r.0| == 0 ==> r.1 == s
    ensures CurIndex(r.1) == CurIndex(s) + |r.0|
    ensures Remaining(r.1) == Remaining(s) - |r.0|
    decreases Remaining(s)
  {
    if s.cur.Some? && p(s.cur.value) then
      var (w, s1) := ReadWhile(Advance(s), p);
      ([s.cur.value] + w, s1)
    else
      ([], s)
  }

  /** A non-empty run is the text between the two cursors ... */
  lemma {:induction false} ReadWhileText(s: Scanner, p: char -> bool)
    requires Valid(s)
    requires forall c :: p(c) ==> IsAlnum(c)
    ensures var r := ReadWhile(s, p);
      |r.0| > 0 ==>
        && 0 <= CurIndex(s) && CurIndex(r.1) <= |s.text|
        && r.0 == s.text[CurIndex(s)..CurIndex(r.1)]
    decreases Remaining(s)
  {
    if s.cur.Some? && p(s.cur.value) {
      var s' := Advance(s);
      ReadWhileText(s', p);
      var r' := ReadWhile(s', p);
      assert ReadWhile(s, p) == ([s.cur.value] + r'.0, r'.1);
      var i := CurIndex(s);
      assert s.next > 0 && s.cur.value == s.text[i] && CurIndex(s') == i + 1;
      SliceCons(s.text, i, CurIndex(r'.1));
    }
  }

  lemma SliceCons(t: string, i: int, j: int)
    requires 0 <= i < j <= |t|
    ensures t[i..j] == [t[i]] + t[i + 1..j]
  {
  }

  /** ... and reading it moves the column along by its length; a newline
      after the run moves the scanner to the next line. */
  lemma {:induction false} ReadWhilePosition(s: Scanner, p: char -> bool)
    requires Valid(s)
    requires forall c :: p(c) ==> IsAlnum(c)
    ensures var r := ReadWhile(s, p);
      |r.0| > 0 ==>
        && r.1.line == s.line + (if r.1.cur == Some('\n') then 1 else 0)
        && r.1.column == (if r.1.cur == Some('\n') then 0 else s.column + |r.0|)
    decreases Remaining(s)
  {
    if s.cur.Some? && p(s.cur.value) {
      var s' := Advance(s);
      ReadWhilePosition(s', p);
      var r' := ReadWhile(s', p);
      assert ReadWhile(s, p) == ([s.cur.value] + r'.0, r'.1);
      if |r'.0| == 0 {
        assert r'.1 == s';
      } else {
        assert s'.cur != Some('\n') && s'.line == s.line && s'.column == s.column + 1;
      }
    }
  }

  /** An identifier: HEADING, LOGIC or NAME (scanner.py lines 171-194). */
  function WordSymbol(s: Scanner): (r: Step)
    requires Valid(s) && s.cur.Some? && IsAlpha(s.cur.value)
    ensures Valid(r.scan) && r.scan.text == s.text
    ensures s.names <= r.scan.names && s.errors <= r.scan.errors
    ensures Remaining(r.scan) < Remaining(s)
    ensures r.sym.kind == Some(Heading) || r.sym.kind == Some(Logic) || r.sym.kind == Some(Name)
    ensures Interned(r.sym, r.scan.names) && Typed(r.sym)
  {
    var (w, s1) := ReadWhile(s, IsAlnum);
    var (kind, id, s2) := WordKind(w, s1);
    Step(Symbol(Some(kind), id, Text(w)), s2)
  }

  /** The kind of word `w`, read up to scanner state `s`: a section name,
      a device kind (interned) or a name (interned, with an INVALID_NAME
      error when it is a reserved word in any case). */
  function WordKind(w: string, s: Scanner): (r: (SymKind, Option<nat>, Scanner))
    requires Valid(s)
    ensures Valid(r.2) && r.2.text == s.text && r.2.next == s.next && r.2.cur == s.cur
    ensures s.names <= r.2.names && s.errors <= r.2.errors
    ensures r.0 == Heading || r.0 == Logic || r.0 == Name
    ensures r.0 == Logic ==> w in LogicList
    ensures r.0 != Heading ==> r.1.Some? && r.1.value < |r.2.names| && r.2.names[r.1.value] == w
  {
    if w in HeadingList then (Heading, None, s)
    else
      var (t, id) := NameTable.Intern(s.names, w);
      var s2 := s.(names := t);
      if w in LogicList then (Logic, Some(id), s2)
      else if Lower(w) in Keywords then
        var e := ScanError(s2.line, LineAt(s2.text, s2.line), s2.column - |w|, InvalidName);
        (Name, Some(id), s2.(errors := s2.errors + [e], errorCount := s2.errorCount + 1))
      else (Name, Some(id), s2)
  }

  /** A number: the maximal digit run, its value as name, no id. */
  function NumberSymbol(s: Scanner): (r: Step)
    requires Valid(s) && s.cur.Some? && IsDigit(s.cur.value)
    ensures Valid(r.scan) && r.scan.text == s.text
    ensures r.scan.names == s.names && r.scan.errors == s.errors
    ensures Remaining(r.scan) < Remaining(s)
    ensures r.sym.kind == Some(Number) && r.sym.name.Num?
  {
    var (w, s1) := ReadWhile(s, IsDigit);
    Step(Symbol(Some(Number), None, Num(DecimalValue(w))), s1)
  }

  /** The classification part of `get_symbol`, on a current character that
      is not a blank. */
  function Classify(s: Scanner): (r: Step)
    requires Valid(s)
    ensures Valid(r.scan) && r.scan.text == s.text
    ensures s.names <= r.scan.names && s.errors <= r.scan.errors
    ensures Remaining(r.scan) <= Remaining(s)
    ensures Consuming(r.sym.kind) ==> Remaining(r.scan) < Remaining(s)
    ensures Interned(r.sym, r.scan.names) && Typed(r.sym)
    ensures r.sym.kind != Some(Input) && r.sym.kind != Some(Output)
    ensures r.sym.kind == Some(Eof) <==> s.cur.None?
    ensures s.cur.None? ==> r == Step(Symbol(Some(Eof), None, Text("EOF")), s)
  {
    match s.cur
    case None => Step(Symbol(Some(Eof), None, Text("EOF")), s)
    case Some(c) =>
      if IsAlpha(c) then WordSymbol(s)
      else if IsDigit(c) then NumberSymbol(s)
      else if PunctuationKind(c).Some? then Step(Symbol(PunctuationKind(c), None, Text([c])), Advance(s))
      else
        var e := ScanError(s.line, [c], s.column, InvalidCharacter);
        Step(Symbol(None, None, Text("")), s.(errors := s.errors + [e], errorCount := s.errorCount + 1))
  }

  /** Every NAME and LOGIC symbol carries text that is in the name table,
      with its id. */
  predicate Interned(sym: Symbol, names: seq<string>) {
    (sym.kind == Some(Name) || sym.kind == Some(Logic)) ==>
      sym.name.Text? && sym.id.Some? && sym.id.value < |names| && names[sym.id.value] == sym.name.text
  }

  /** NUMBER symbols carry their value, and LOGIC symbols one of the
      device-kind words. */
  predicate Typed(sym: Symbol) {
    && (sym.kind == Some(Number) ==> sym.name.Num?)
    && (sym.kind == Some(Logic) ==> sym.name.Text? && sym.name.text in LogicList)
  }

  /** Kinds whose symbol consumed at least one character. */
  predicate Consuming(k: Option<SymKind>) {
    k.Some? && k.value != Eof
  }

  /** `get_symbol`. */
  function GetSymbol(s: Scanner): (r: Outcome<Step>)
    requires Valid(s)
    ensures r.Done? || r.Hang?
    ensures r.Done? ==> Valid(r.value.scan) && r.value.scan.text == s.text
    ensures r.Done? ==> s.names <= r.value.scan.names && s.errors <= r.value.scan.errors
    ensures r.Done? ==> Remaining(r.value.scan) <= Remaining(s)
    ensures r.Done? && Consuming(r.value.sym.kind) ==> Remaining(r.value.scan) < Remaining(s)
    ensures r.Done? ==> Interned(r.value.sym, r.value.scan.names) && Typed(r.value.sym)
    ensures r.Done? ==> r.value.sym.kind != Some(Input) && r.value.sym.kind != Some(Output)
  {
    var s1 :- SkipBlank(s);
    Done(Classify(s1))
  }

  /** A symbol list whose only EOF symbol is its last one. */
  predicate EofOnlyLast(syms: seq<Symbol>) {
    && |syms| > 0
    && syms[|syms| - 1].kind == Some(Eof)
    && forall i :: 0 <= i < |syms| - 1 ==> syms[i].kind != Some(Eof)
  }

  lemma EofOnlyLastCons(sym: Symbol, rest: seq<Symbol>)
    requires sym.kind != Some(Eof) && EofOnlyLast(rest)
    ensures EofOnlyLast([sym] + rest)
  {
    var all := [sym] + rest;
    assert forall i :: 1 <= i < |all| ==> all[i] == rest[i - 1];
  }

  /** Earlier symbols stay interned as the name table grows. */
  lemma InternedGrows(sym: Symbol, names: seq<string>, names': seq<string>)
    requires Interned(sym, names) && names <= names'
    ensures Interned(sym, names')
  {
    if sym.kind == Some(Name) || sym.kind == Some(Logic) {
      assert names'[sym.id.value] == names[sym.id.value];
    }
  }

  /** An EOF symbol leaves the cursor at the end of the file. */
  lemma EofLeavesEnd(s: Scanner)
    requires Valid(s) && GetSymbol(s).Done? && GetSymbol(s).value.sym.kind == Some(Eof)
    ensures GetSymbol(s).value.scan.cur.None?
  {
    assert Classify(SkipBlank(s).value) == GetSymbol(s).value;
  }

  /** Every symbol of the list is interned in `names`. */
  predicate AllInterned(syms: seq<Symbol>, names: seq<string>) {
    forall i :: 0 <= i < |syms| ==> Interned(syms[i], names)
  }

  lemma AllInternedCons(sym: Symbol, syms: seq<Symbol>, names: seq<string>, names': seq<string>)
    requires Interned(sym, names) && names <= names' && AllInterned(syms, names')
    ensures AllInterned([sym] + syms, names')
  {
    InternedGrows(sym, names, names');
    assert forall i :: 1 <= i < |[sym] + syms| ==> ([sym] + syms)[i] == syms[i - 1];
  }

  /** `get_all_symbols`, with `fuel` bounding its loop (an invalid character
      is never consumed, so the source's loop need not end). The result
      pairs the symbols with the scanner the loop leaves behind: at the end
      of the file, with every error recorded on the way and every word
      interned in the name table the symbols' ids index. */
  function AllSymbols(s: Scanner, fuel: nat): (r: Outcome<(seq<Symbol>, Scanner)>)
    requires Valid(s)
    ensures r.Done? ==> EofOnlyLast(r.value.0)
    ensures r.Done? ==> Valid(r.value.1) && r.value.1.text == s.text && r.value.1.cur.None?
    ensures r.Done? ==> s.names <= r.value.1.names && s.errors <= r.value.1.errors
    ensures r.Done? ==> AllInterned(r.value.0, r.value.1.names)
    decreases fuel
  {
    if fuel == 0 then OutOfFuel
    else
      var g := GetSymbol(s);
      if !g.Done? then Hang
      else
        var sym := g.value.sym;
        if sym.kind == Some(Eof) then
          EofLeavesEnd(s);
          Done(([sym], g.value.scan))
        else
          var rest := AllSymbols(g.value.scan, fuel - 1);
          if !rest.Done? then rest
          else
            EofOnlyLastCons(sym, rest.value.0);
            AllInternedCons(sym, rest.value.0, g.value.scan.names, rest.value.1.names);
            Done(([sym] + rest.value.0, rest.value.1))
  }
}

=== FILE: scanner_props.dfy ===
/** Properties of the scanner model: what one `get_symbol` call reads,
    returns and records, stated against the text rather than the code. */
module ScanningProps {

  import opened Wrappers
  import opened CharClass
  import NameTable
  import opened Scanning

  /** `w` is the maximal run of characters satisfying `p` that starts at
      index `i` of `t`. */
  predicate MaximalRun(t: string, i: int, w: string, p: char -> bool) {
    && 0 <= i && i + |w| <= |t|
    && w == t[i..i + |w|]
    && (forall k :: 0 <= k < |w| ==> p(w[k]))
    && (i + |w| == |t| || !p(t[i + |w|]))
  }

  /** The name an identifier symbol carries is the maximal alphanumeric
      run at the cursor. */
  lemma WordRun(s: Scanner)
    requires Valid(s) && s.cur.Some? && IsAlpha(s.cur.value)
    ensures var r := WordSymbol(s);
      && r.sym.name.Text?
      && MaximalRun(s.text, CurIndex(s), r.sym.name.text, IsAlnum)
  {
    var rw := ReadWhile(s, IsAlnum);
    ReadWhileText(s, IsAlnum);
    var k := WordKind(rw.0, rw.1);
    assert WordSymbol(s) == Step(Symbol(Some(k.0), k.1, Text(rw.0)), k.2);
    RunIsMaximal(s, IsAlnum);
  }

  /** A non-empty run read by `ReadWhile` is a maximal run. */
  lemma RunIsMaximal(s: Scanner, p: char -> bool)
    requires Valid(s)
    requires forall c :: p(c) ==> IsAlnum(c)
    ensures var r := ReadWhile(s, p);
      |r.0| > 0 ==> MaximalRun(s.text, CurIndex(s), r.0, p)
  {
    var r := ReadWhile(s, p);
    ReadWhileText(s, p);
    if |r.0| > 0 && r.1.cur.Some? {
      assert r.1.next > 0 && r.1.cur.value == s.text[CurIndex(r.1)];
    }
  }

  /** Identifier classification: a word is a HEADING (no id) exactly when
      it is a section name, a LOGIC symbol exactly when it is a device kind,
      and a NAME otherwise; LOGIC and NAME symbols carry the word's id in
      the name table, which grows by the word exactly when it was not there
      before. */
  lemma IdentifierClassification(s: Scanner)
    requires Valid(s) && s.cur.Some? && IsAlpha(s.cur.value)
    ensures var r := WordSymbol(s); var w := r.sym.name.text;
      && r.sym.name.Text?
      && (r.sym.kind == Some(Heading) <==> w in HeadingList)
      && (r.sym.kind == Some(Logic) <==> w !in HeadingList && w in LogicList)
      && (r.sym.kind == Some(Name) <==> w !in HeadingList && w !in LogicList)
      && (r.sym.kind == Some(Heading) ==> r.sym.id == None && r.scan.names == s.names)
      && (r.sym.kind != Some(Heading) ==>
            r.sym.id == NameTable.Query(r.scan.names, w)
            && r.scan.names == (if w in s.names then s.names else s.names + [w]))
  {
    var rw := ReadWhile(s, IsAlnum);
    var k := WordKind(rw.0, rw.1);
    assert WordSymbol(s) == Step(Symbol(Some(k.0), k.1, Text(rw.0)), k.2);
    if rw.0 !in HeadingList {
      WordInterned(rw.0, rw.1);
      NameTable.QueryFindsIndex(k.2.names, k.1.value);
    }
  }

  /** A word that is not a section name is interned in the name table. */
  lemma WordInterned(w: string, s: Scanner)
    requires Valid(s) && w !in HeadingList
    ensures var r := WordKind(w, s);
      && r.1 == Some(NameTable.Intern(s.names, w).1)
      && r.2.names == NameTable.Intern(s.names, w).0
      && r.0 == (if w in LogicList then Logic else Name)
  {
  }

  /** Reserved-word names: a NAME is still returned, and exactly one
      INVALID_NAME error is recorded exactly when its lower-case spelling is
      a keyword, at column `current_position - len(name)`. When the name is
      not at the end of a line that column is the one of its first
      character. */
  lemma ReservedWordName(s: Scanner)
    requires Valid(s) && s.cur.Some? && IsAlpha(s.cur.value)
    requires WordSymbol(s).sym.kind == Some(Name)
    ensures var r := WordSymbol(s); var w := r.sym.name.text;
      && |r.scan.errors| == |s.errors| + (if Lower(w) in Keywords then 1 else 0)
      && (Lower(w) in Keywords ==>
            var e := r.scan.errors[|s.errors|];
            && e.code == InvalidName
            && e.line == r.scan.line
            && e.column == r.scan.column - |w|
            && (r.scan.cur != Some('\n') ==> e.column == s.column && e.line == s.line))
  {
    var rw := ReadWhile(s, IsAlnum);
    ReadWhilePosition(s, IsAlnum);
    var k := WordKind(rw.0, rw.1);
    assert WordSymbol(s) == Step(Symbol(Some(k.0), k.1, Text(rw.0)), k.2);
    ReservedWordError(rw.0, rw.1);
  }

  /** The error a reserved word gets is placed `|w|` columns back from where
      the word's reading stopped. */
  lemma ReservedWordError(w: string, s: Scanner)
    requires Valid(s) && WordKind(w, s).0 == Name
    ensures var r := WordKind(w, s).2;
      && r.line == s.line && r.column == s.column
      && |r.errors| == |s.errors| + (if Lower(w) in Keywords then 1 else 0)
      && (Lower(w) in Keywords ==>
            var e := r.errors[|s.errors|];
            e.code == InvalidName && e.line == s.line && e.column == s.column - |w|)
  {
  }

  /** A reserved-word NAME that ends its line is reported one line too far
      on, at a negative column: the newline has already been read when the
      error is built. */
  lemma ReservedNameAtLineEnd(s: Scanner)
    requires Valid(s) && s.cur.Some? && IsAlpha(s.cur.value)
    requires WordSymbol(s).sym.kind == Some(Name)
    requires Lower(WordSymbol(s).sym.name.text) in Keywords
    requires WordSymbol(s).scan.cur == Some('\n')
    ensures var r := WordSymbol(s);
      && r.scan.errors[|s.errors|].line == s.line + 1
      && r.scan.errors[|s.errors|].column == -|r.sym.name.text| < 0
  {
    var rw := ReadWhile(s, IsAlnum);
    ReadWhilePosition(s, IsAlnum);
    var k := WordKind(rw.0, rw.1);
    assert WordSymbol(s) == Step(Symbol(Some(k.0), k.1, Text(rw.0)), k.2);
    ReservedWordError(rw.0, rw.1);
  }

  /** Numbers: the maximal digit run at the cursor, with the run's decimal
      value as name and no id; nothing is recorded. */
  lemma NumberRun(s: Scanner)
    requires Valid(s) && s.cur.Some? && IsDigit(s.cur.value)
    ensures var r := NumberSymbol(s);
      && r.sym.kind == Some(Number) && r.sym.id == None
      && r.scan.errors == s.errors
      && (exists w :: MaximalRun(s.text, CurIndex(s), w, IsDigit) && |w| > 0
                      && r.sym.name == Num(DecimalValue(w))
                      && CurIndex(r.scan) == CurIndex(s) + |w|)
  {
    var (w, s1) := ReadWhile(s, IsDigit);
    RunIsMaximal(s, IsDigit);
    assert MaximalRun(s.text, CurIndex(s), w, IsDigit);
  }

  /** Punctuation: each of `= . , ; ( ) [ ]` gives its own kind, with that
      character as name, and consumes exactly that character. */
  lemma PunctuationSymbol(s: Scanner)
    requires Valid(s) && s.cur.Some? && PunctuationKind(s.cur.value).Some?
    ensures var r := Classify(s);
      && r.sym == Symbol(PunctuationKind(s.cur.value), None, Text([s.cur.value]))
      && CurIndex(r.scan) == CurIndex(s) + 1
      && r.scan.errors == s.errors && r.scan.names == s.names
  {
    var c := s.cur.value;
    assert !IsAlpha(c) && !IsDigit(c);
    assert Classify(s) == Step(Symbol(PunctuationKind(c), None, Text([c])), Advance(s));
  }

  /** The eight punctuation characters map to eight different kinds. */
  lemma PunctuationDistinct(c: char, d: char)
    requires PunctuationKind(c).Some? && PunctuationKind(d).Some? && c != d
    ensures PunctuationKind(c) != PunctuationKind(d)
    ensures PunctuationKind(c).value !in {Heading, Logic, Number, Name, Input, Output, Eof}
  {
  }

  /** End of input: EOF is returned without moving the cursor or recording
      anything. */
  lemma EofAtEnd(s: Scanner)
    requires Valid(s) && s.cur.None?
    ensures GetSymbol(s) == Done(Step(Symbol(Some(Eof), None, Text("EOF")), s))
  {
  }

  /** Once EOF has been returned, every further call returns it again and
      changes nothing. */
  lemma {:induction false} EofIdempotent(s: Scanner, st: Step)
    requires Valid(s) && GetSymbol(s) == Done(st) && st.sym.kind == Some(Eof)
    ensures st.scan.cur.None?
    ensures GetSymbol(st.scan) == Done(st)
  {
    var s1 := SkipBlank(s).value;
    assert Classify(s1) == st && s1.cur.None? && st.scan == s1;
    EofAtEnd(s1);
  }

  /** Once the file is read, `get_all_symbols` returns the one EOF symbol. */
  lemma AllSymbolsAtEnd(s: Scanner, fuel: nat)
    requires Valid(s) && s.cur.None? && fuel > 0
    ensures AllSymbols(s, fuel) == Done(([Symbol(Some(Eof), None, Text("EOF"))], s))
  {
    EofAtEnd(s);
  }

  /** A character that starts no symbol: exactly one INVALID_CHARACTER
      error at the cursor, a symbol with no kind, and the cursor unchanged. */
  lemma InvalidCharacterSymbol(s: Scanner)
    requires Valid(s) && s.cur.Some?
    requires !IsAlpha(s.cur.value) && !IsDigit(s.cur.value) && PunctuationKind(s.cur.value).None?
    ensures var r := Classify(s);
      && r.sym.kind == None
      && r.scan == s.(errors := r.scan.errors, errorCount := r.scan.errorCount)
      && r.scan.errors == s.errors + [ScanError(s.line, [s.cur.value], s.column, InvalidCharacter)]
  {
  }

  /** The cursor is on a character that starts no symbol and is not
      skipped as blank or comment. */
  predicate InvalidAt(s: Scanner) {
    && s.cur.Some? && !IsAlpha(s.cur.value) && !IsDigit(s.cur.value)
    && PunctuationKind(s.cur.value).None?
    && !IsSpace(s.cur.value) && s.cur.value != '#'
  }

  /** An error symbol leaves the cursor on the character it rejected. */
  lemma ErrorSymbolAt(s: Scanner)
    requires Valid(s) && GetSymbol(s).Done? && GetSymbol(s).value.sym.kind == None
    requires GetSymbol(s).value.scan.cur != Some('#')
    ensures InvalidAt(GetSymbol(s).value.scan)
  {
    var s1 := SkipBlank(s).value;
    assert Classify(s1) == GetSymbol(s).value;
  }

  /** Since the invalid character is not consumed, the next call meets it
      again: the same error symbol, the cursor unchanged. */
  lemma InvalidCharacterRepeats(s: Scanner)
    requires Valid(s) && InvalidAt(s)
    ensures GetSymbol(s).Done?
    ensures GetSymbol(s).value.sym == Symbol(None, None, Text(""))
    ensures GetSymbol(s).value.scan.cur == s.cur
    ensures |GetSymbol(s).value.scan.errors| == |s.errors| + 1
  {
    assert SkipSpaces(s) == s;
    assert SkipBlank(s) == Done(s);
    InvalidCharacterSymbol(s);
  }

  /** A symbol other than EOF followed by a stream that runs out of fuel. */
  lemma OutOfFuelPropagates(s: Scanner, fuel: nat)
    requires Valid(s) && GetSymbol(s).Done? && GetSymbol(s).value.sym.kind != Some(Eof)
    requires AllSymbols(GetSymbol(s).value.scan, fuel) == OutOfFuel
    ensures AllSymbols(s, fuel + 1) == OutOfFuel
  {
  }

  lemma {:induction false} InvalidCharacterLoops(s: Scanner, fuel: nat)
    requires Valid(s) && InvalidAt(s)
    ensures AllSymbols(s, fuel) == OutOfFuel
    decreases fuel
  {
    if fuel > 0 {
      InvalidCharacterRepeats(s);
      var f: nat := fuel - 1;
      InvalidCharacterLoops(GetSymbol(s).value.scan, f);
      OutOfFuelPropagates(s, f);
    }
  }

  /** ... so `get_all_symbols` never returns once it meets one. */
  lemma InvalidCharacterStallsAllSymbols(s: Scanner, fuel: nat)
    requires Valid(s) && GetSymbol(s).Done? && GetSymbol(s).value.sym.kind == None
    requires GetSymbol(s).value.scan.cur != Some('#')
    ensures AllSymbols(s, fuel) == OutOfFuel
  {
    if fuel > 0 {
      ErrorSymbolAt(s);
      var f: nat := fuel - 1;
      InvalidCharacterLoops(GetSymbol(s).value.scan, f);
      OutOfFuelPropagates(s, f);
    }
  }

  /** Only one comment is skipped per call: a second `#` right after a
      comment line is an invalid character for that call. */
  lemma {:induction false} SecondCommentIsInvalid(s: Scanner)
    requires Valid(s)
    requires SkipBlank(s).Done? && SkipBlank(s).value.cur == Some('#')
    ensures GetSymbol(s).Done?
    ensures GetSymbol(s).value.sym.kind == None
    ensures |GetSymbol(s).value.scan.errors| == |s.errors| + 1
    ensures GetSymbol(s).value.scan.errors[|s.errors|].code == InvalidCharacter
  {
    var s1 := SkipBlank(s).value;
    assert GetSymbol(s) == Done(Classify(s1));
    assert !IsAlpha('#') && !IsDigit('#') && PunctuationKind('#').None?;
    InvalidCharacterSymbol(s1);
  }

  /** A comment that runs to the end of the file without a newline never
      ends: `get_symbol` loops. */
  lemma {:induction false} UnterminatedCommentHangs(s: Scanner)
    requires Valid(s)
    requires SkipSpaces(s).cur == Some('#')
    requires '\n' !in s.text[SkipSpaces(s).next..]
    ensures GetSymbol(s) == Hang
  {
    var s1 := SkipSpaces(s);
    var s2 := Advance(s1);
    if s1.next < |s.text| {
      assert s2.cur == Some(s.text[s1.next]) && s2.next == s1.next + 1;
      assert s.text[s1.next..] == [s.text[s1.next]] + s.text[s2.next..];
      assert s2.cur != Some('\n') && '\n' !in s2.text[s2.next..];
    } else {
      assert s2.cur.None?;
    }
    assert SkipToNewline(s2) == Hang;
    assert SkipBlank(s) == Hang;
  }

  /** `get_current_line`: the first line of a text is everything up to and
      including the first newline, and line k + 1 is line k of what follows. */
  lemma LineAtSplits(l: string, rest: string, k: nat)
    requires '\n' !in l
    ensures LineAt(l + "\n" + rest, 0) == l + "\n"
    ensures LineAt(l + "\n" + rest, k + 1) == LineAt(rest, k)
  {
    var t := l + "\n" + rest;
    LineEndAfter(t, l);
    assert t[|l| + 1..] == rest;
  }

  lemma {:induction false} LineEndAfter(t: string, l: string)
    requires '\n' !in l && |l| < |t| && t[..|l|] == l && t[|l|] == '\n'
    ensures LineEnd(t, 0) == |l| + 1
  {
    LineEndFrom(t, 0, |l|);
  }

  lemma {:induction false} LineEndFrom(t: string, i: nat, n: nat)
    requires i <= n < |t| && t[n] == '\n'
    requires forall j :: i <= j < n ==> t[j] != '\n'
    ensures LineEnd(t, i) == n + 1
    decreases n - i
  {
    if i < n {
      LineEndFrom(t, i + 1, n);
    }
  }

  /** A text with no newline is a single line. */
  lemma LineAtNoNewline(t: string)
    requires '\n' !in t
    ensures LineAt(t, 0) == t
    ensures forall k :: k > 0 ==> LineAt(t, k) == ""
  {
    assert LineEnd(t, 0) == |t|;
    forall k | k > 0
      ensures LineAt(t, k) == ""
    {
      assert t[|t|..] == "";
      LineAtEmpty(k - 1);
    }
  }

  lemma {:induction false} LineAtEmpty(k: nat)
    ensures LineAt("", k) == ""
  {
    if k > 0 {
      assert ""[0..] == "";
      LineAtEmpty(k - 1);
    }
  }
}

=== FILE: wrappers.dfy ===
/** Failure-compatible results shared by the scanner and the parser model.

    `Outcome` records how a call of the original program ends: with a value,
    with an uncaught Python exception (`Crash`), by looping for ever (`Hang`,
    used where the model can show the loop never exits), or because the fuel
    that bounds an unguarded loop of the model ran out (`OutOfFuel`). */
module Wrappers {

  datatype Option<+T> = None | Some(value: T)

  /** The uncaught Python exceptions the parser can raise. */
  datatype Fault = IndexError | ValueError | KeyError | TypeError

  datatype Outcome<+T> = Done(value: T) | Crash(fault: Fault) | Hang | OutOfFuel {

    predicate IsFailure() {
      !Done?
    }

    function PropagateFailure<U>(): Outcome<U>
      requires !Done?
    {
      if Crash? then Crash(fault) else if Hang? then Hang else OutOfFuel
    }

    function Extract(): T
      requires Done?
    {
      value
    }
  }
}
